=== FILE: README.md ===
# Monthly weather statistics: the aggregation job and the output decoder

This project models two parts of a small pipeline that summarises daily
weather observations by month.

**The aggregation job.** This is the MapReduce job in
`map_reduce_program/monthly_weather_stats_mrjob.py`.
- The mapper reads one JSON record per line. It keeps a record that has a
  date, a maximum temperature and a precipitation sum. It emits
  `(YYYY-MM, (temperature, 1, precipitation))`.
- The mapper silently drops a record whose date is missing or falsy, or whose
  temperature or precipitation is missing or null. It drops a record on which
  a conversion raises (an empty temperature string, say), and counts it under
  the `mapper_errors` counter group, keyed by the exception's class name.
- The combiner adds the partial tuples of one month component-wise.
- The reducer does the same fold. It then yields the month's average daily
  maximum (0 when there are no observations) and its total precipitation,
  both rounded to two decimals, as a dict.

**The output decoder.** This is the loop of `get_weather_from_s3` in
`weather_api_server.py`, which reads the job's output back.
- It splits the stored text into rows and each row into tab-separated fields.
- It keeps the rows with exactly two fields.
- It strips `"` from the month field.
- It reads the second field as a Python literal. It keeps the row only when
  that literal is a two-element list whose elements `float` accepts.
- It skips every other row and carries on.
- When the object cannot be fetched, it returns `None` instead of a list.

## Modules

Each `.dfy` file holds one module.

- `Text`: a split on one separator character, and `str.strip` with a
  character set.
- `Numerals`: digit strings, zero padding, decimal numerals, and Python's
  `float(str)` for plain decimal text.
- `Calendar`: `datetime.strptime(s, '%Y-%m-%d')` with its leniency, and
  `strftime('%Y-%m')`.
- `Aggregation`: the partial tuple and its monoid. It also holds the combiner
  and reducer methods (accumulator loops proved against the fold
  `SumTuples`), Python's `round(x, 2)`, and partition independence.
- `Mapper`: the decoded JSON value, the mapper's outcome, and the job object.
  The job object's counters are the only state the mapper changes.
- `Literals`: a closed literal grammar standing in for `ast.literal_eval`.
  Its partner is a renderer, and the two are proved to round-trip.
- `Decoder`: row decoding, the fold over rows, and the imperative
  `GetWeatherFromS3` loop proved against that fold. It also proves that the
  dict rows the reducer writes are never decoded.

How the two halves fit together:
- The reducer writes each month as a dict row, `{"avg_max_temp": ..., "total_precip": ...}`
  (`monthly_weather_stats_mrjob.py:83-87`). The decoder accepts only a two-element list
  (`weather_api_server.py:71-74`), so it refuses every row the reducer writes:
  `Decoder.ReducerRowSkipped` and `Decoder.ReducerOutputDecodesToNothing` state the mismatch.
- The decoder splits each row at every tab and keeps only rows with exactly two fields
  (`weather_api_server.py:63-66`). A skipped row leaves no trace in the result; the code
  only prints a message about it.
- The mapper's guard (`monthly_weather_stats_mrjob.py:30`) drops, without touching any
  counter, a record whose date is missing or falsy (an empty string included) or whose
  temperature or precipitation is missing or null. An empty temperature or precipitation
  string passes the guard, and the ValueError `float` then raises is counted. Only
  exceptions are counted, under the exception's class name. A line that is not JSON is
  counted as `JSONDecodeError`, the ValueError subclass `json.loads` raises.

## Model

| member | source | states |
|---|---|---|
| Text.Split | weather_api_server.py:62-65 | a row splits into one more field than it has tabs, and no field contains a tab |
| Text.SplitJoin | weather_api_server.py:62-65 | tab-free fields joined with tabs split back into exactly those fields |
| Text.JoinSplit | weather_api_server.py:62-65 | joining the fields of a split gives the original text back, so nothing is lost |
| Text.Strip | weather_api_server.py:67 | the stripped month is no longer than the field and neither starts nor ends with a stripped character |
| Text.StripSlice | weather_api_server.py:67 | strip removes only a leading and a trailing run of stripped characters and keeps the middle slice intact |
| Text.StripWrapped | weather_api_server.py:67 | a field wrapped in any number of quote characters strips to its inner text |
| Numerals.ZeroPadValue | map_reduce_program/monthly_weather_stats_mrjob.py:36 | a zero-padded number reads back as the number when it fits the width |
| Numerals.ValueZeroPad | map_reduce_program/monthly_weather_stats_mrjob.py:36 | padding a digit string's value to its own length gives the digit string back |
| Numerals.ScanNumeral | weather_api_server.py:70 | a scanned number token is a valid unsigned numeral whose text is exactly the consumed prefix |
| Numerals.ScanNumeralShow | weather_api_server.py:70 | a numeral's text followed by a delimiter scans back to that numeral |
| Numerals.ParseSignedShow | weather_api_server.py:75-76 | `float` of a numeral's text, signed or not, is the numeral's value |
| Numerals.ParseFloat | weather_api_server.py:75-76 | text `float` accepts holds only digits, signs, points and the six ASCII whitespace characters, so anything else raises ValueError |
| Numerals.SeparatorNotStripped | weather_api_server.py:75-76 | `12` followed by the separator `\x1c` is refused, as `float` strips only C whitespace |
| Numerals.ParseFloatSound | weather_api_server.py:75-76 | whatever `float` accepts is, once stripped of whitespace, one unsigned numeral with an optional `+` or `-` in front, and the result is its value with that sign |
| Numerals.ParsePlusShow | weather_api_server.py:75-76 | a `+` before a numeral, with any surrounding whitespace, is accepted and gives the numeral's value, so `float("+5")` is 5.0 |
| Numerals.ParseFloatShow | weather_api_server.py:75-76 | `float` ignores surrounding ASCII whitespace (space, tab, newline, vertical tab, form feed, carriage return) around a numeral's text |
| Calendar.DaysInMonth | map_reduce_program/monthly_weather_stats_mrjob.py:36 | every month has 28 to 31 days, and February has 29 exactly in Gregorian leap years |
| Calendar.ParseDate | map_reduce_program/monthly_weather_stats_mrjob.py:36 | every date `strptime` accepts is a valid calendar date in years 1 to 9999 |
| Calendar.MonthKey | map_reduce_program/monthly_weather_stats_mrjob.py:36 | the month key is seven characters `YYYY-MM` whose digits denote the date's year and month |
| Calendar.MonthKeyIsPrefix | map_reduce_program/monthly_weather_stats_mrjob.py:36 | the month key is the first seven characters of the date's ISO text |
| Calendar.ParseFormatDate | map_reduce_program/monthly_weather_stats_mrjob.py:36 | the ISO text of every valid date is accepted as that date |
| Calendar.IsoShapedDate | map_reduce_program/monthly_weather_stats_mrjob.py:36 | on `DDDD-DD-DD` text `strptime` succeeds exactly when the three numbers form a valid date |
| Calendar.IsoShapedMonthKey | map_reduce_program/monthly_weather_stats_mrjob.py:36 | for accepted `DDDD-DD-DD` text the month key is its first seven characters |
| Calendar.ShortFieldsAccepted | map_reduce_program/monthly_weather_stats_mrjob.py:36 | `2023-1-5` is accepted, and its key is still zero-padded to `2023-01` |
| Calendar.LeapDayAccepted | map_reduce_program/monthly_weather_stats_mrjob.py:36 | 29 February 2024 is a valid date |
| Calendar.LeapDayRefused | map_reduce_program/monthly_weather_stats_mrjob.py:36 | 29 February 2023 is refused |
| Aggregation.MergeIsCommutativeMonoid | map_reduce_program/monthly_weather_stats_mrjob.py:55-58 | component-wise addition is associative and commutative, with identity `(0, 0, 0)` |
| Aggregation.SumTuplesAppend | map_reduce_program/monthly_weather_stats_mrjob.py:72-75 | folding a concatenation merges the folds of the two parts |
| Aggregation.SumTuplesPermutation | map_reduce_program/monthly_weather_stats_mrjob.py:72-75 | the totals do not depend on the order in which the tuples arrive |
| Aggregation.SumTuplesRemoveAt | map_reduce_program/monthly_weather_stats_mrjob.py:72-75 | taking any one tuple out of the fold and merging it back in leaves the totals unchanged |
| Aggregation.CombinePartitionIndependence | map_reduce_program/monthly_weather_stats_mrjob.py:45-75 | combining each batch and then folding gives the totals of folding every tuple directly |
| Aggregation.SingleBatch | map_reduce_program/monthly_weather_stats_mrjob.py:51-60 | a tuple folded alone is itself, so an uncombined tuple is a batch of one |
| Aggregation.Combine | map_reduce_program/monthly_weather_stats_mrjob.py:45-60 | the combiner keeps the key and yields the component-wise sum of its inputs, `(0, 0, 0)` for none |
| Aggregation.AverageTemp | map_reduce_program/monthly_weather_stats_mrjob.py:77-79 | the average is 0 with no observations, and otherwise times the count gives the temperature sum |
| Aggregation.RoundHalfEven | map_reduce_program/monthly_weather_stats_mrjob.py:84-85 | the result is the nearest integer, and a tie goes to the even one |
| Aggregation.Round2 | map_reduce_program/monthly_weather_stats_mrjob.py:84-85 | the result is a whole number of hundredths at most half a hundredth away, so the nearest one, and an exact tie goes to the even hundredth |
| Aggregation.Round2Hundredths | map_reduce_program/monthly_weather_stats_mrjob.py:84-85 | a value with at most two decimals is left unchanged |
| Aggregation.Round2Idempotent | map_reduce_program/monthly_weather_stats_mrjob.py:84-85 | rounding twice is the same as rounding once |
| Aggregation.Round2TiesToEven | map_reduce_program/monthly_weather_stats_mrjob.py:84-85 | 0.125 rounds to 0.12 and 0.375 to 0.38 |
| Aggregation.Reduce | map_reduce_program/monthly_weather_stats_mrjob.py:62-87 | the reducer keeps the key and yields the rounded average and total of the fold of its inputs |
| Aggregation.ReduceIsBatchingIndependent | map_reduce_program/monthly_weather_stats_mrjob.py:45-87 | the reducer's output is the same for any batching by the combiner and any delivery order |
| Aggregation.ObservationCount | map_reduce_program/monthly_weather_stats_mrjob.py:72-75 | over mapper outputs the total count is the number of observations |
| Aggregation.SumBounds | map_reduce_program/monthly_weather_stats_mrjob.py:72-75 | the temperature sum of n observations lies between n times the lowest and n times the highest |
| Aggregation.AverageWithinRange | map_reduce_program/monthly_weather_stats_mrjob.py:77-79 | the average of mapper outputs lies between the lowest and highest daily maximum |
| Aggregation.TwoDayScenario | map_reduce_program/monthly_weather_stats_mrjob.py:62-87 | days of 20.0 and 22.0 degrees with 5.0 and 3.0 of rain reduce to 21.0 and 8.0 |
| Mapper.ToFloat | map_reduce_program/monthly_weather_stats_mrjob.py:32-33 | numbers keep their value, `true` and `false` give 1.0 and 0.0, text gives the value `float` reads from it or raises ValueError, and null, lists and objects raise TypeError |
| Mapper.MonthOf | map_reduce_program/monthly_weather_stats_mrjob.py:36 | the date yields a key exactly when it is text `strptime` accepts; the key is that date's month; text raises ValueError, anything else TypeError |
| Mapper.MapRecord | map_reduce_program/monthly_weather_stats_mrjob.py:23-43 | an emitted pair has count 1 and the converted fields; the record is dropped exactly when the guard fails; when all three conversions succeed the pair is emitted under the date's month, and a failing date is counted under its own error; non-JSON and non-object lines fail |
| Mapper.MapWellFormedRecord | map_reduce_program/monthly_weather_stats_mrjob.py:23-38 | a record with a valid ISO date and two numbers is mapped to that date's month and one observation |
| Mapper.MapFailureOrder | map_reduce_program/monthly_weather_stats_mrjob.py:32-41 | the first failing conversion, temperature then precipitation then date, names the counter, which is ValueError or TypeError |
| Mapper.WeatherStatsJob.IncrementCounter | map_reduce_program/monthly_weather_stats_mrjob.py:41 | the named counter grows by the amount and every other counter is unchanged |
| Mapper.WeatherStatsJob.MapperExtractMonthlyData | map_reduce_program/monthly_weather_stats_mrjob.py:16-43 | at most one pair, with count 1; a caught exception bumps exactly one `mapper_errors` counter by one; otherwise the counters are unchanged |
| Mapper.ValuesFor | map_reduce_program/monthly_weather_stats_mrjob.py:38 | a month receives at most one tuple per line, each with count 1 |
| Mapper.ReducerCountsAcceptedLines | map_reduce_program/monthly_weather_stats_mrjob.py:72-75 | fed mapper outputs, the reducer's total count is the number of lines accepted for that month |
| Mapper.RejectedLineContributesNothing | map_reduce_program/monthly_weather_stats_mrjob.py:25-43 | a dropped or failing line adds nothing to any month |
| Literals.StringBody | weather_api_server.py:70 | a string body ends at the first closing quote, contains neither that quote nor a backslash, and the text is body, quote, rest |
| Literals.ParseValue | weather_api_server.py:70 | a parsed value consumes at least one character and is well formed (a literal the renderer can write) |
| Literals.ParseLiteral | weather_api_server.py:70 | every literal accepted from a whole field is well formed |
| Literals.StringBodyRoundTrip | weather_api_server.py:70 | a quote-free, backslash-free body followed by its quote is read back exactly |
| Literals.ParseRender | weather_api_server.py:70 | every well-formed literal's text, followed by any delimiter, parses back to that literal |
| Literals.ParseLiteralRender | weather_api_server.py:70 | the text of every well-formed literal is parsed back to the same literal |
| Literals.ParsedLiteralRendersBack | weather_api_server.py:70 | every accepted literal has a canonical text that parses back to the same literal |
| Decoder.LiteralFloat | weather_api_server.py:75-76 | numbers keep their value, booleans become 1 and 0, strings convert as `float` does, and None, lists and dicts are refused |
| Decoder.DecodeRow | weather_api_server.py:65-81 | a row without exactly one tab is skipped; a decoded row's month is its stripped first field and its second field is a two-element list |
| Decoder.RowRecords | weather_api_server.py:65-81 | a row appends at most one record |
| Decoder.DecodeRows | weather_api_server.py:65-87 | there are never more records than rows |
| Decoder.GetWeatherFromS3 | weather_api_server.py:56-91 | a failed fetch gives `None`, and a fetched blob gives the records of its rows in order |
| Decoder.DecodeRowsAppend | weather_api_server.py:65-87 | the records of concatenated rows are the records of each part, in row order |
| Decoder.DecodeOneRow | weather_api_server.py:65-81 | a single row yields its record or nothing |
| Decoder.MalformedRowSkipped | weather_api_server.py:82-85 | a row that cannot be decoded is skipped and the rows after it are still decoded |
| Decoder.EmptyBlob | weather_api_server.py:61-87 | an empty blob gives an empty list, which is distinct from the `None` of a failed fetch |
| Decoder.SplitTabRow | weather_api_server.py:63-66 | a row of two tab-free fields splits into exactly those two fields |
| Decoder.WrongShapeSkipped | weather_api_server.py:71-74 | a row whose literal is anything but a two-element list is skipped, including a dict or unparsable text |
| Decoder.StripQuotedKey | weather_api_server.py:67 | a key in double quotes strips to the key |
| Decoder.DecodeListShape | weather_api_server.py:70-85 | a two-element list decodes to a record of its converted elements, or is skipped when either conversion fails |
| Decoder.NullTemperatureSkipped | weather_api_server.py:75-85 | a row whose temperature is None is skipped |
| Decoder.ListRowDecodes | weather_api_server.py:65-81 | every quoted month with a two-number list decodes to that month and those two values |
| Decoder.ReducerRowSkipped | weather_api_server.py:71-74 | the reducer's dict row splits into two fields and parses as that dict, and is then skipped |
| Decoder.ReducerOutputDecodesToNothing | weather_api_server.py:71-74 | a sequence of rows each written by the reducer, or empty, decodes to no records at all |
| Decoder.ReducerBlobDecodesToNothing | weather_api_server.py:61-87 | a stored blob whose lines are all reducer rows, the empty line after a final newline included, decodes to an empty list |
| Decoder.DocumentedRow | weather_api_server.py:50-54 | the documented row `"2023-01"<TAB>[24.75, 106.5]` decodes to month 2023-01, temperature 24.75, precipitation 106.5 |

## Left out

- Fetching the object from S3 (`get_object`, `read`, `decode('utf-8')`, `weather_api_server.py:58-59`) is left out. `GetWeatherFromS3` takes the fetched text, or `None` for any exception those two lines raise. Creating the S3 client (`weather_api_server.py:56`) happens before the `try`, so an exception there propagates to the caller instead of giving `None`; the model does not capture that.
- The mrjob runtime is left out: `steps`, `run`, the shuffle that groups values by key, and distributed execution. The reducer gets a month's values as one sequence, and `Aggregation.ReduceIsBatchingIndependent` covers any batching and delivery order.
- IEEE-754 floating point is left out. Sums, the average and `round` work on exact reals, so float rounding error and the ties that float representation decides are not modelled.
- The reducer's integer `0` average for an empty month is modelled as the real `0.0`. It has the same value.
- `json.loads` is left out. The mapper receives the decoded value, or `None` when decoding raised.
- `float` on text is restricted to plain decimal notation with an optional sign and surrounding ASCII whitespace (space, `\t`, `\n`, `\v`, `\f` and `\r`; not `\x1c` to `\x1f`, which `float` refuses). Exponents, `inf`, `nan`, digit underscores, non-ASCII digits and non-ASCII whitespace (such as `\x85` or `\xa0`) are left out.
- Calendar.ParseDate: accepts only ASCII digits. Python's `strptime` matches `%Y` and the two-digit `%d` forms with a Unicode `\d`, so a date such as `٢٠٢٣-01-05` is accepted by the program and emitted under `2023-01`; the model refuses it and counts a ValueError.
- Decoder.LiteralFloat, Decoder.GetWeatherFromS3 and Mapper.ToFloat: `float` of an integer too large for a double raises OverflowError, which the model does not capture, because values are exact reals. In the decoder that exception escapes the row handler (`weather_api_server.py:82`) and the whole call returns `None` (`:89-91`), while the model decodes the row. In the mapper it is not among the caught exceptions (`monthly_weather_stats_mrjob.py:39`), so the task fails, while the model emits the record.
- Exceptions that escape the mapper are left out: a RecursionError from `json.loads` on deeply nested input is modelled as a caught decoding failure, though the program does not catch it.
- `ast.literal_eval` is replaced by a closed grammar. It covers `None`, `True`, `False`, decimal numbers (leading-zero integers refused), quoted strings without escapes, lists, dicts and trailing commas.
  - Left out of the grammar: exponents, hexadecimal, octal (`0o17`) and binary (`0b101`) integers, digit underscores (`1_000`), complex numbers, escapes, string prefixes, triple-quoted strings, implicit concatenation of adjacent strings, tuples, sets, parentheses, comments, whitespace other than spaces between tokens (a form feed, say), and a sign before anything but a number.
  - A row using any of these is modelled as skipped, where Python might accept it.
- `literal_eval` raising anything other than ValueError, SyntaxError or TypeError (MemoryError, RecursionError) is left out. In the code such an exception would make the whole function return `None`.
- The `csv` reader is modelled as a plain split on newlines and tabs.
  - Left out: quoted fields holding tabs or newlines, removal of the quotes around a quoted field, `\r\n` line ends, and a `csv.Error` turning the whole result into `None`.
  - For the documented row shape both readings give the same month, because of the `strip('"')`.
- `strftime('%Y')` for years below 1000 is left out. The model pads to four digits, while some C libraries print such years unpadded.
- `print` logging, the Flask routes, the HTML template and its `%.2f`/`%.1f` formatting, and the configuration constants are left out.

=== FILE: aggregation.dfy ===
/**
 * The combiner and reducer of the monthly statistics job.
 *
 * Both receive the `(temperature, count, precipitation)` tuples of one month
 * key and add them component-wise; the reducer then turns the totals into the
 * month's average daily maximum temperature and total precipitation, each
 * rounded to two decimals. Floating-point sums are modelled as exact `real`
 * sums, so the algebra a MapReduce combiner relies on (a commutative monoid with
 * identity `(0, 0, 0)`) holds exactly.
 */
module Aggregation {

  /** A partial statistic: the summed temperatures, the number of daily
      observations behind them and the summed precipitation. A mapper output
      is a partial with count 1. */
  datatype Partial = Partial(sumTemp: real, count: nat, sumPrecip: real)

  const Zero: Partial := Partial(0.0, 0, 0.0)

  /** Component-wise addition of two partials. */
  function Merge(a: Partial, b: Partial): Partial {
    Partial(a.sumTemp + b.sumTemp, a.count + b.count, a.sumPrecip + b.sumPrecip)
  }

  /** Merge and Zero form a commutative monoid. */
  lemma MergeIsCommutativeMonoid(a: Partial, b: Partial, c: Partial)
    ensures Merge(Zero, a) == a && Merge(a, Zero) == a
    ensures Merge(a, b) == Merge(b, a)
    ensures Merge(Merge(a, b), c) == Merge(a, Merge(b, c))
  {
  }

  /** The left-to-right fold of Merge over `values`, starting from Zero: what
      the combiner's and the reducer's accumulator loops compute. */
  function SumTuples(values: seq<Partial>): Partial {
    if values == [] then Zero
    else Merge(SumTuples(values[..|values| - 1]), values[|values| - 1])
  }

  /** Folding a concatenation is merging the folds of the parts. */
  lemma {:induction false} SumTuplesAppend(a: seq<Partial>, b: seq<Partial>)
    ensures SumTuples(a + b) == Merge(SumTuples(a), SumTuples(b))
    decreases |b|
  {
    if b == [] {
      assert a + b == a;
      MergeIsCommutativeMonoid(SumTuples(a), Zero, Zero);
    } else {
      var b' := b[..|b| - 1];
      var y := b[|b| - 1];
      assert (a + b)[..|a + b| - 1] == a + b';
      assert (a + b)[|a + b| - 1] == y;
      SumTuplesAppend(a, b');
      calc {
        SumTuples(a + b);
        Merge(SumTuples(a + b'), y);
        Merge(Merge(SumTuples(a), SumTuples(b')), y);
        { MergeIsCommutativeMonoid(SumTuples(a), SumTuples(b'), y); }
        Merge(SumTuples(a), Merge(SumTuples(b'), y));
        Merge(SumTuples(a), SumTuples(b));
      }
    }
  }

  /** The fold does not depend on the order in which the tuples arrive. */
  lemma {:induction false} SumTuplesPermutation(a: seq<Partial>, b: seq<Partial>)
    requires multiset(a) == multiset(b)
    ensures SumTuples(a) == SumTuples(b)
    decreases |a|
  {
    if a == [] {
      assert |b| == |multiset(b)| == 0;
    } else {
      var x := a[|a| - 1];
      var a' := a[..|a| - 1];
      assert a == a' + [x];
      assert x in multiset(b);
      var j :| 0 <= j < |b| && b[j] == x;
      var b' := b[..j] + b[j + 1..];
      MultisetRemoveLast(a, b, j);
      SumTuplesPermutation(a', b');
      SumTuplesRemoveAt(b, j);
    }
  }

  lemma MultisetRemoveLast(a: seq<Partial>, b: seq<Partial>, j: nat)
    requires a != [] && multiset(a) == multiset(b)
    requires j < |b| && b[j] == a[|a| - 1]
    ensures multiset(a[..|a| - 1]) == multiset(b[..j] + b[j + 1..])
  {
    var x := b[j];
    var a' := a[..|a| - 1];
    assert a == a' + [x];
    assert b == b[..j] + [x] + b[j + 1..];
    assert multiset(a') == multiset(a) - multiset{x};
    assert multiset(b[..j] + b[j + 1..]) == multiset(b) - multiset{x};
  }

  /** Taking one tuple out of the fold and merging it back in changes nothing. */
  lemma SumTuplesRemoveAt(b: seq<Partial>, j: nat)
    requires j < |b|
    ensures SumTuples(b) == Merge(SumTuples(b[..j] + b[j + 1..]), b[j])
  {
    SplitAround(b, j);
    SumTuplesMiddle(b[..j], b[j], b[j + 1..]);
  }

  lemma SplitAround(b: seq<Partial>, j: nat)
    requires j < |b|
    ensures b[..j] + [b[j]] + b[j + 1..] == b
  {
  }

  lemma SumTuplesMiddle(p: seq<Partial>, x: Partial, q: seq<Partial>)
    ensures SumTuples(p + [x] + q) == Merge(SumTuples(p + q), x)
  {
    var sp, sq := SumTuples(p), SumTuples(q);
    SumTuplesAppend(p + [x], q);
    SumTuplesAppend(p, [x]);
    SumTuplesAppend(p, q);
    SingleBatch(x);
    assert SumTuples(p + [x] + q) == Merge(Merge(sp, x), sq);
    assert SumTuples(p + q) == Merge(sp, sq);
  }

  // ---------------------------------------------------------------------------
  // Batching: the combiner applied to any partition of a key's tuples

  function Flatten(batches: seq<seq<Partial>>): seq<Partial> {
    if batches == [] then [] else Flatten(batches[..|batches| - 1]) + batches[|batches| - 1]
  }

  /** The combiner's output for each batch, in batch order. */
  function CombineEach(batches: seq<seq<Partial>>): (combined: seq<Partial>)
    ensures |combined| == |batches|
  {
    seq(|batches|, i requires 0 <= i < |batches| => SumTuples(batches[i]))
  }

  /** Partition independence: combining each batch and then folding the batch
      results gives the same totals as folding all tuples directly. */
  lemma {:induction false} CombinePartitionIndependence(batches: seq<seq<Partial>>)
    ensures SumTuples(CombineEach(batches)) == SumTuples(Flatten(batches))
    decreases |batches|
  {
    if batches != [] {
      var n := |batches|;
      var init := batches[..n - 1];
      CombinePartitionIndependence(init);
      assert CombineEach(batches)[..n - 1] == CombineEach(init);
      SumTuplesAppend(Flatten(init), batches[n - 1]);
    }
  }

  /** A tuple the combiner never saw counts as a batch of its own, so a
      reducer fed a mix of raw and combined tuples still gets the direct totals. */
  lemma SingleBatch(x: Partial)
    ensures SumTuples([x]) == x
  {
    assert [x][..0] == [];
  }

  // ---------------------------------------------------------------------------
  // The combiner and the reducer

  /** The combiner: add the month's tuples component-wise. */
  method Combine(monthYear: string, values: seq<Partial>) returns (key: string, combined: Partial)
    ensures key == monthYear
    ensures combined == SumTuples(values)
  {
    var sumTemp, numRecords: nat, sumPrecip := 0.0, 0, 0.0;
    for i := 0 to |values|
      invariant Partial(sumTemp, numRecords, sumPrecip) == SumTuples(values[..i])
    {
      assert values[..i + 1][..i] == values[..i];
      sumTemp := sumTemp + values[i].sumTemp;
      numRecords := numRecords + values[i].count;
      sumPrecip := sumPrecip + values[i].sumPrecip;
    }
    assert values[..|values|] == values;
    key, combined := monthYear, Partial(sumTemp, numRecords, sumPrecip);
  }

  /** The month's average daily maximum temperature; 0 for a month with no
      observations. */
  function AverageTemp(total: Partial): (avg: real)
    ensures total.count == 0 ==> avg == 0.0
    ensures total.count > 0 ==> avg * total.count as real == total.sumTemp
  {
    if total.count > 0 then total.sumTemp / total.count as real else 0.0
  }

  /** The nearest integer to `y`, ties going to the even one. */
  function RoundHalfEven(y: real): (n: int)
    ensures -0.5 <= n as real - y <= 0.5
    ensures n as real - y == 0.5 || y - n as real == 0.5 ==> n % 2 == 0
  {
    var f := y.Floor;
    var frac := y - f as real;
    if frac < 0.5 then f
    else if frac > 0.5 then f + 1
    else if f % 2 == 0 then f
    else f + 1
  }

  /** Python's `round(x, 2)`, taken on the exact value: the nearest multiple of
      one hundredth, ties to the even multiple. */
  function Round2(x: real): (r: real)
    ensures -0.005 <= r - x <= 0.005
    ensures (r * 100.0).Floor as real == r * 100.0
    ensures r - x == 0.005 || x - r == 0.005 ==> (r * 100.0).Floor % 2 == 0
  {
    var n := RoundHalfEven(x * 100.0);
    ScaleHundredths(n, x);
    n as real / 100.0
  }

  /** Moving between hundredths and units is exact. */
  lemma ScaleHundredths(n: int, x: real)
    ensures n as real / 100.0 * 100.0 == n as real
    ensures n as real / 100.0 - x == (n as real - x * 100.0) / 100.0
  {
  }

  /** A value that already has at most two decimals is left alone, so rounding
      twice is rounding once. */
  lemma Round2Hundredths(k: int)
    ensures Round2(k as real / 100.0) == k as real / 100.0
  {
    var x := k as real / 100.0;
    assert x * 100.0 == k as real;
    assert (k as real).Floor == k;
  }

  lemma Round2Idempotent(x: real)
    ensures Round2(Round2(x)) == Round2(x)
  {
    Round2Hundredths(RoundHalfEven(x * 100.0));
  }

  /** Ties go to the even hundredth: 0.125 rounds down, 0.375 rounds up. */
  lemma Round2TiesToEven()
    ensures Round2(0.125) == 0.12 && Round2(0.375) == 0.38
  {
    assert (12.5).Floor == 12;
    assert (37.5).Floor == 37;
  }

  /** The reducer's output value for one month. */
  datatype MonthlyStats = MonthlyStats(avgMaxTemp: real, totalPrecip: real)

  function FinalStats(total: Partial): MonthlyStats {
    MonthlyStats(Round2(AverageTemp(total)), Round2(total.sumPrecip))
  }

  /** The reducer: fold the month's tuples, then average and round. */
  method Reduce(monthYear: string, values: seq<Partial>) returns (key: string, stats: MonthlyStats)
    ensures key == monthYear
    ensures stats == FinalStats(SumTuples(values))
  {
    var totalTempSum, totalNumRecords: nat, totalPrecipSum := 0.0, 0, 0.0;
    for i := 0 to |values|
      invariant Partial(totalTempSum, totalNumRecords, totalPrecipSum) == SumTuples(values[..i])
    {
      assert values[..i + 1][..i] == values[..i];
      totalTempSum := totalTempSum + values[i].sumTemp;
      totalNumRecords := totalNumRecords + values[i].count;
      totalPrecipSum := totalPrecipSum + values[i].sumPrecip;
    }
    assert values[..|values|] == values;
    var avgTempMax := 0.0;
    if totalNumRecords > 0 {
      avgTempMax := totalTempSum / totalNumRecords as real;
    }
    key, stats := monthYear, MonthlyStats(Round2(avgTempMax), Round2(totalPrecipSum));
  }

  /** The reducer's result is the same whether or not (and however) the
      combiner ran first, and whatever order the tuples arrive in. */
  lemma ReduceIsBatchingIndependent(batches: seq<seq<Partial>>, delivered: seq<Partial>)
    requires multiset(delivered) == multiset(CombineEach(batches))
    ensures FinalStats(SumTuples(delivered)) == FinalStats(SumTuples(Flatten(batches)))
  {
    SumTuplesPermutation(delivered, CombineEach(batches));
    CombinePartitionIndependence(batches);
  }

  // ---------------------------------------------------------------------------
  // Totals over raw mapper outputs

  /** Every tuple stands for exactly one daily observation. */
  predicate AllSingleObservations(values: seq<Partial>) {
    forall i :: 0 <= i < |values| ==> values[i].count == 1
  }

  /** Over mapper outputs the total count is the number of observations. */
  lemma {:induction false} ObservationCount(values: seq<Partial>)
    requires AllSingleObservations(values)
    ensures SumTuples(values).count == |values|
  {
    if values != [] {
      ObservationCount(values[..|values| - 1]);
    }
  }

  /** Over mapper outputs the average lies between the lowest and the highest
      daily maximum. */
  lemma AverageWithinRange(values: seq<Partial>, lo: real, hi: real)
    requires values != [] && AllSingleObservations(values)
    requires forall i :: 0 <= i < |values| ==> lo <= values[i].sumTemp <= hi
    ensures lo <= AverageTemp(SumTuples(values)) <= hi
  {
    ObservationCount(values);
    SumBounds(values, lo, hi);
    var t := SumTuples(values);
    QuotientBounds(t.sumTemp, |values| as real, lo, hi);
  }

  lemma QuotientBounds(s: real, n: real, lo: real, hi: real)
    requires n > 0.0 && n * lo <= s <= n * hi
    ensures lo <= s / n <= hi
  {
    assert s / n - lo == (s - n * lo) / n;
    assert hi - s / n == (n * hi - s) / n;
  }

  lemma {:induction false} SumBounds(values: seq<Partial>, lo: real, hi: real)
    requires AllSingleObservations(values)
    requires forall i :: 0 <= i < |values| ==> lo <= values[i].sumTemp <= hi
    ensures |values| as real * lo <= SumTuples(values).sumTemp <= |values| as real * hi
  {
    if values != [] {
      var init := values[..|values| - 1];
      var m := |init| as real;
      SumBounds(init, lo, hi);
      assert |values| as real * lo == m * lo + lo;
      assert |values| as real * hi == m * hi + hi;
    }
  }

  /** Two days of January, 20.0 and 22.0 degrees with 5.0 and 3.0 of rain,
      reduce to an average of 21.0 and a total of 8.0. */
  lemma TwoDayScenario()
    ensures FinalStats(SumTuples([Partial(20.0, 1, 5.0), Partial(22.0, 1, 3.0)]))
         == MonthlyStats(21.0, 8.0)
  {
    var values := [Partial(20.0, 1, 5.0), Partial(22.0, 1, 3.0)];
    assert values[..1] == [Partial(20.0, 1, 5.0)] && values[..1][..0] == [];
    assert SumTuples(values) == Partial(42.0, 2, 8.0);
    Round2Hundredths(2100);
    Round2Hundredths(800);
  }
}

=== FILE: calendar.dfy ===
/**
 * The mapper's month extraction: `datetime.strptime(date_str, '%Y-%m-%d')`
 * followed by `.strftime('%Y-%m')`.
 *
 * `strptime` matches the date text against the pattern it builds from the
 * format (four digits for `%Y`; `1[0-2]|0[1-9]|[1-9]` for `%m`;
 * `3[01]|[12]\d|0[1-9]|[1-9]| [1-9]` for `%d`), refuses text left over after
 * the match, and then refuses a year below 1 or a day past the end of the
 * month in the Gregorian calendar. Every refusal is a ValueError.
 */
module Calendar {
  import opened Text
  import opened Numerals

  datatype Date = Date(year: int, month: int, day: int)

  predicate IsLeapYear(y: int) {
    y % 4 == 0 && (y % 100 != 0 || y % 400 == 0)
  }

  function DaysInMonth(y: int, m: int): (n: int)
    requires 1 <= m <= 12
    ensures 28 <= n <= 31
    ensures m == 2 ==> (n == 29 <==> IsLeapYear(y))
  {
    if m == 2 then (if IsLeapYear(y) then 29 else 28)
    else if m == 4 || m == 6 || m == 9 || m == 11 then 30
    else 31
  }

  /** The dates `datetime` can represent. */
  predicate ValidDate(d: Date) {
    && 1 <= d.year <= 9999
    && 1 <= d.month <= 12
    && 1 <= d.day <= DaysInMonth(d.year, d.month)
  }

  predicate IsNonZeroDigit(c: char) {
    '1' <= c <= '9'
  }

  /** `%m` followed by the `-` of the format, at the front of `s`: the month
      number and the text after the `-`. The two-digit alternatives are tried
      first; the one-digit one can only succeed when they do not. */
  function MonthField(s: string): (r: Option<(int, string)>)
    ensures r.Some? ==> 1 <= r.value.0 <= 12 && |r.value.1| < |s|
  {
    if |s| >= 3 && s[2] == '-'
       && ((s[0] == '1' && '0' <= s[1] <= '2') || (s[0] == '0' && IsNonZeroDigit(s[1])))
    then Some((10 * DigitValue(s[0]) + DigitValue(s[1]), s[3..]))
    else if |s| >= 2 && IsNonZeroDigit(s[0]) && s[1] == '-'
    then Some((DigitValue(s[0]), s[2..]))
    else None
  }

  /** `%d` making up the whole of `s` (a match that leaves text over is
      refused as unconverted data). */
  function DayField(s: string): (r: Option<int>)
    ensures r.Some? ==> 1 <= r.value <= 31
  {
    if |s| == 2
       && ((s[0] == '3' && (s[1] == '0' || s[1] == '1'))
           || ((s[0] == '1' || s[0] == '2') && IsDigit(s[1]))
           || (s[0] == '0' && IsNonZeroDigit(s[1])))
    then Some(10 * DigitValue(s[0]) + DigitValue(s[1]))
    else if |s| == 2 && s[0] == ' ' && IsNonZeroDigit(s[1]) then Some(DigitValue(s[1]))
    else if |s| == 1 && IsNonZeroDigit(s[0]) then Some(DigitValue(s[0]))
    else None
  }

  /** `strptime(s, '%Y-%m-%d')`; `None` stands for the ValueError. */
  function ParseDate(s: string): (r: Option<Date>)
    ensures r.Some? ==> ValidDate(r.value)
  {
    if |s| < 5 || !AllDigits(s[..4]) || s[4] != '-' then None
    else
      match MonthField(s[5..])
      case None => None
      case Some((m, rest)) =>
        match DayField(rest)
        case None => None
        case Some(day) =>
          var y := DigitsValue(s[..4]);
          if 1 <= y && day <= DaysInMonth(y, m) then Some(Date(y, m, day)) else None
  }

  /** The ISO text of a date, `YYYY-MM-DD`. */
  function FormatDate(d: Date): string
    requires ValidDate(d)
  {
    ZeroPad(d.year, 4) + ['-'] + ZeroPad(d.month, 2) + ['-'] + ZeroPad(d.day, 2)
  }

  /** `strftime('%Y-%m')`: the grouping key of the month a date falls in. */
  function MonthKey(d: Date): (key: string)
    requires ValidDate(d)
    ensures |key| == 7 && key[4] == '-'
    ensures AllDigits(key[..4]) && DigitsValue(key[..4]) == d.year
    ensures AllDigits(key[5..]) && DigitsValue(key[5..]) == d.month
  {
    ZeroPadValue(d.year, 4);
    ZeroPadValue(d.month, 2);
    var key := ZeroPad(d.year, 4) + ['-'] + ZeroPad(d.month, 2);
    assert key[..4] == ZeroPad(d.year, 4) && key[5..] == ZeroPad(d.month, 2);
    key
  }

  /** The month key is the `YYYY-MM` prefix of the date's ISO text. */
  lemma MonthKeyIsPrefix(d: Date)
    requires ValidDate(d)
    ensures MonthKey(d) == FormatDate(d)[..7]
  {
    var f := FormatDate(d);
    assert f == MonthKey(d) + (['-'] + ZeroPad(d.day, 2));
  }

  lemma TwoDigits(n: nat)
    requires n < 100
    ensures ZeroPad(n, 2) == [DigitChar(n / 10), DigitChar(n % 10)]
  {
    var t := n / 10;
    assert t < 10 && t / 10 == 0 && t % 10 == t;
    assert ZeroPad(t, 1) == ZeroPad(0, 0) + [DigitChar(t)];
    assert ZeroPad(n, 2) == ZeroPad(t, 1) + [DigitChar(n % 10)];
  }

  lemma TwoDigitValue(s: string)
    requires |s| == 2 && AllDigits(s)
    ensures DigitsValue(s) == 10 * DigitValue(s[0]) + DigitValue(s[1])
  {
    assert s[..1] == [s[0]];
  }

  lemma MonthFieldOfPadded(m: int, rest: string)
    requires 1 <= m <= 12
    ensures MonthField(ZeroPad(m, 2) + ['-'] + rest) == Some((m, rest))
  {
    TwoDigits(m);
    var t := ZeroPad(m, 2) + ['-'] + rest;
    assert t[3..] == rest;
  }

  lemma DayFieldOfPadded(day: int)
    requires 1 <= day <= 31
    ensures DayField(ZeroPad(day, 2)) == Some(day)
  {
    TwoDigits(day);
    var t, u := day / 10, day % 10;
    assert day == 10 * t + u && t <= 3;
    var s := ZeroPad(day, 2);
    assert s[0] == DigitChar(t) && s[1] == DigitChar(u);
    if t == 0 {
      assert s[0] == '0' && IsNonZeroDigit(s[1]);
    } else if t == 3 {
      assert s[0] == '3' && (s[1] == '0' || s[1] == '1');
    } else {
      assert s[0] == '1' || s[0] == '2';
    }
  }

  /** Every valid date's ISO text is read back as that date. */
  lemma ParseFormatDate(d: Date)
    requires ValidDate(d)
    ensures ParseDate(FormatDate(d)) == Some(d)
  {
    var ys, ds := ZeroPad(d.year, 4), ZeroPad(d.day, 2);
    var s := FormatDate(d);
    ZeroPadValue(d.year, 4);
    assert s[..4] == ys && s[4] == '-';
    assert s[5..] == ZeroPad(d.month, 2) + ['-'] + ds;
    MonthFieldOfPadded(d.month, ds);
    DayFieldOfPadded(d.day);
  }

  /** Text of the strict shape `DDDD-DD-DD` (D a digit). */
  predicate IsIsoShaped(s: string) {
    && |s| == 10 && s[4] == '-' && s[7] == '-'
    && AllDigits(s[..4]) && AllDigits(s[5..7]) && AllDigits(s[8..])
  }

  /** `%m-` on two digits: the two-digit alternatives decide, and the
      one-digit one cannot match because the second character is a digit. */
  lemma MonthFieldTwoDigits(t: string)
    requires |t| >= 3 && IsDigit(t[0]) && IsDigit(t[1]) && t[2] == '-'
    ensures var m := 10 * DigitValue(t[0]) + DigitValue(t[1]);
      MonthField(t) == (if 1 <= m <= 12 then Some((m, t[3..])) else None)
  {
  }

  /** `%d` on exactly two digits. */
  lemma DayFieldTwoDigits(t: string)
    requires |t| == 2 && IsDigit(t[0]) && IsDigit(t[1])
    ensures var day := 10 * DigitValue(t[0]) + DigitValue(t[1]);
      DayField(t) == (if 1 <= day <= 31 then Some(day) else None)
  {
  }

  /** For text of the strict shape, `strptime` succeeds exactly when the three
      numbers form a valid date. */
  lemma IsoShapedDate(s: string)
    requires IsIsoShaped(s)
    ensures var d := Date(DigitsValue(s[..4]), DigitsValue(s[5..7]), DigitsValue(s[8..]));
      ParseDate(s) == (if ValidDate(d) then Some(d) else None)
  {
    var tail := s[5..];
    assert tail[..2] == s[5..7] && tail[2] == '-' && tail[3..] == s[8..];
    assert IsDigit(tail[0]) && IsDigit(tail[1]);
    MonthFieldTwoDigits(tail);
    TwoDigitValue(s[5..7]);
    DayFieldTwoDigits(s[8..]);
    TwoDigitValue(s[8..]);
    assert DigitsValue(s[..4]) < 10000 by {
      assert Pow10(4) == 10000;
    }
  }

  /** For such text the month key is its first seven characters. */
  lemma IsoShapedMonthKey(s: string)
    requires IsIsoShaped(s) && ParseDate(s).Some?
    ensures MonthKey(ParseDate(s).value) == s[..7]
  {
    IsoShapedDate(s);
    var d := ParseDate(s).value;
    assert d.year == DigitsValue(s[..4]) && d.month == DigitsValue(s[5..7]);
    ValueZeroPad(s[..4]);
    ValueZeroPad(s[5..7]);
    assert s[..7] == s[..4] + ['-'] + s[5..7];
  }

  lemma FourDigitValue(s: string)
    requires |s| == 4 && AllDigits(s)
    ensures DigitsValue(s) == 1000 * DigitValue(s[0]) + 100 * DigitValue(s[1])
                              + 10 * DigitValue(s[2]) + DigitValue(s[3])
  {
    var s3 := s[..3];
    assert s3[..2] == s[..2];
    TwoDigitValue(s[..2]);
    assert DigitsValue(s3) == 10 * DigitsValue(s[..2]) + DigitValue(s[2]);
  }

  /** `strptime` accepts a one-digit month and day, and the key is still zero-padded. */
  lemma ShortFieldsAccepted()
    ensures ParseDate("2023-1-5") == Some(Date(2023, 1, 5))
    ensures MonthKey(Date(2023, 1, 5)) == "2023-01"
  {
    var s := "2023-1-5";
    FourDigitValue(s[..4]);
    assert s[5..] == "1-5";
    assert MonthField("1-5") == Some((1, "5"));
    assert ZeroPad(2023, 4) == "2023";
  }

  /** February 29 exists only in leap years. */
  lemma LeapDayAccepted()
    ensures ParseDate("2024-02-29") == Some(Date(2024, 2, 29))
  {
    var s := "2024-02-29";
    IsoShapedDate(s);
    FourDigitValue(s[..4]);
    TwoDigitValue(s[5..7]);
    TwoDigitValue(s[8..]);
  }

  lemma LeapDayRefused()
    ensures ParseDate("2023-02-29") == None
  {
    var s := "2023-02-29";
    IsoShapedDate(s);
    FourDigitValue(s[..4]);
    TwoDigitValue(s[5..7]);
    TwoDigitValue(s[8..]);
  }
}

=== FILE: decoder.dfy ===
/**
 * Reading the job's output back: the loop of `get_weather_from_s3` that turns
 * each row `"<month>"<TAB><literal>` into a record with `month`,
 * `temperature` and `precipitation`, skipping any row it cannot read, and the
 * `None` the function returns when the object cannot be fetched.
 */
module Decoder {
  import opened Text
  import N = Numerals
  import opened Literals

  /** One decoded row: the dict `{'month', 'temperature', 'precipitation'}`. */
  datatype WeatherRecord = WeatherRecord(month: string, temperature: real, precipitation: real)

  /** `float(v)` on a value the literal parser produced; `None` stands for the
      TypeError (None, lists, dicts) or ValueError (text `float` refuses). */
  function LiteralFloat(v: Literal): (r: Option<real>)
    requires WellFormed(v)
    ensures v.LNum? ==> r == Some(N.Value(v.n))
    ensures v.LBool? ==> r == Some(if v.b then 1.0 else 0.0)
    ensures v.LStr? ==> r == N.ParseFloat(v.s)
    ensures v.LNone? || v.LList? || v.LDict? ==> r == None
  {
    match v
    case LNum(n) => Some(N.Value(n))
    case LBool(b) => Some(if b then 1.0 else 0.0)
    case LStr(s) => N.ParseFloat(s)
    case _ => None
  }

  /** The characters `strip('"')` removes from the month field. */
  const Quotes: set<char> := {'"'}

  /** One row of the blob: a record, or `None` when the row is skipped. */
  function DecodeRow(row: string): (r: Option<WeatherRecord>)
    ensures Occurrences(row, '\t') != 1 ==> r == None
    ensures r.Some? ==> r.value.month == Strip(Split(row, '\t')[0], Quotes)
    ensures r.Some? ==>
      && ParseLiteral(Split(row, '\t')[1]).Some?
      && ParseLiteral(Split(row, '\t')[1]).value.LList?
      && |ParseLiteral(Split(row, '\t')[1]).value.items| == 2
  {
    var fields := Split(row, '\t');
    if |fields| != 2 then None
    else
      match ParseLiteral(fields[1])
      case Some(LList(items)) =>
        if |items| != 2 then None
        else
          (match (LiteralFloat(items[0]), LiteralFloat(items[1]))
           case (Some(temp), Some(precip)) => Some(WeatherRecord(Strip(fields[0], Quotes), temp, precip))
           case _ => None)
      case _ => None
  }

  /** What one row contributes to the result: its record, or nothing. */
  function RowRecords(row: string): (records: seq<WeatherRecord>)
    ensures |records| <= 1
  {
    match DecodeRow(row)
    case Some(rec) => [rec]
    case None => []
  }

  /** The records of a sequence of rows, in row order. */
  function DecodeRows(rows: seq<string>): (records: seq<WeatherRecord>)
    ensures |records| <= |rows|
  {
    if rows == [] then []
    else DecodeRows(rows[..|rows| - 1]) + RowRecords(rows[|rows| - 1])
  }

  lemma DecodeRowsPrefix(rows: seq<string>, i: nat)
    requires i < |rows|
    ensures DecodeRows(rows[..i + 1]) == DecodeRows(rows[..i]) + RowRecords(rows[i])
  {
    assert rows[..i + 1][..i] == rows[..i];
  }

  lemma PairItemsWellFormed(v: Literal)
    requires WellFormed(v) && v.LList? && |v.items| == 2
    ensures WellFormed(v.items[0]) && WellFormed(v.items[1])
  {
  }

  lemma NothingAppended(records: seq<WeatherRecord>)
    ensures records + [] == records
  {
  }

  /** The rows of a blob: its lines. */
  function Rows(content: string): seq<string> {
    Split(content, '\n')
  }

  /** `get_weather_from_s3`. `fetched` is the decoded body of the object, or
      `None` when fetching, reading or decoding it raised. */
  method GetWeatherFromS3(fetched: Option<string>) returns (data: Option<seq<WeatherRecord>>)
    ensures fetched.None? <==> data.None?
    ensures fetched.Some? ==> data == Some(DecodeRows(Rows(fetched.value)))
  {
    if fetched.None? {
      return None;
    }
    var rows := Rows(fetched.value);
    var results: seq<WeatherRecord> := [];
    for i := 0 to |rows|
      invariant results == DecodeRows(rows[..i])
    {
      DecodeRowsPrefix(rows, i);
      var row := rows[i];
      ghost var decoded := RowRecords(row);
      var fields := Split(row, '\t');
      if |fields| == 2 {
        var month := Strip(fields[0], Quotes);
        var valueList := ParseLiteral(fields[1]);
        if valueList.Some? && valueList.value.LList? && |valueList.value.items| == 2 {
          var items := valueList.value.items;
          PairItemsWellFormed(valueList.value);
          var temp := LiteralFloat(items[0]);
          var precip := LiteralFloat(items[1]);
          if temp.Some? && precip.Some? {
            assert decoded == [WeatherRecord(month, temp.value, precip.value)];
            results := results + [WeatherRecord(month, temp.value, precip.value)];
          } else {
            assert decoded == [];
            NothingAppended(results);
          }
        } else {
          assert decoded == [];
          NothingAppended(results);
        }
      } else {
        assert decoded == [];
        NothingAppended(results);
      }
    }
    assert rows[..|rows|] == rows;
    return Some(results);
  }

  // ---------------------------------------------------------------------------
  // Order and skipping

  /** Decoding distributes over concatenation of row sequences: records keep
      the order of their rows. */
  lemma {:induction false} DecodeRowsAppend(a: seq<string>, b: seq<string>)
    ensures DecodeRows(a + b) == DecodeRows(a) + DecodeRows(b)
    decreases |b|
  {
    if b == [] {
      assert a + b == a;
      NothingAppended(DecodeRows(a));
    } else {
      var init, last := b[..|b| - 1], b[|b| - 1];
      SplitLast(a, b);
      DecodeRowsAppend(a, init);
      assert DecodeRows(a + b) == DecodeRows(a + init) + RowRecords(last);
      assert DecodeRows(b) == DecodeRows(init) + RowRecords(last);
      AppendAssociates(DecodeRows(a), DecodeRows(init), RowRecords(last));
    }
  }

  lemma SplitLast(a: seq<string>, b: seq<string>)
    requires b != []
    ensures (a + b)[..|a + b| - 1] == a + b[..|b| - 1] && (a + b)[|a + b| - 1] == b[|b| - 1]
  {
  }

  lemma AppendAssociates(x: seq<WeatherRecord>, y: seq<WeatherRecord>, z: seq<WeatherRecord>)
    ensures x + y + z == x + (y + z)
  {
  }

  /** A row contributes its record, or nothing. */
  lemma DecodeOneRow(row: string)
    ensures DecodeRows([row]) == RowRecords(row)
  {
    assert [row][..0] == [];
  }

  /** A row that cannot be read is skipped and the rows after it are still
      decoded. */
  lemma MalformedRowSkipped(before: seq<string>, row: string, after: seq<string>)
    requires DecodeRow(row) == None
    ensures DecodeRows(before + [row] + after) == DecodeRows(before) + DecodeRows(after)
  {
    DecodeRowsAppend(before + [row], after);
    DecodeRowsAppend(before, [row]);
    DecodeOneRow(row);
    assert RowRecords(row) == [];
    NothingAppended(DecodeRows(before));
  }

  /** A blob with no text, like one whose every row is malformed, gives no
      records; this is a successful result, unlike a failed fetch. */
  lemma EmptyBlob()
    ensures DecodeRows(Rows("")) == []
  {
    assert Split("", '\t') == [""];
    assert Rows("") == [""];
    DecodeOneRow("");
  }

  // ---------------------------------------------------------------------------
  // Row shapes

  /** Two fields joined by the tab separator. */
  function TabRow(first: string, second: string): string {
    first + ['\t'] + second
  }

  lemma SplitTabRow(first: string, second: string)
    requires '\t' !in first && '\t' !in second
    ensures Split(TabRow(first, second), '\t') == [first, second]
  {
    JoinHead([first, second], '\t');
    JoinHead([second], '\t');
    assert Join([first, second], '\t') == TabRow(first, second);
    SplitJoin([first, second], '\t');
  }

  /** A row whose second field is not a two-element list is skipped, whatever
      it holds: a dict, a list of another length, a bare value, or text the
      literal parser refuses. */
  lemma WrongShapeSkipped(first: string, second: string)
    requires '\t' !in first && '\t' !in second
    requires !(ParseLiteral(second).Some? && ParseLiteral(second).value.LList?
               && |ParseLiteral(second).value.items| == 2)
    ensures DecodeRow(TabRow(first, second)) == None
  {
    SplitTabRow(first, second);
  }

  /** The month field in the job's output: the key in double quotes. */
  function QuotedKey(key: string): string {
    ['"'] + key + ['"']
  }

  lemma StripQuotedKey(key: string)
    requires key == [] || (key[0] != '"' && key[|key| - 1] != '"')
    ensures Strip(QuotedKey(key), Quotes) == key
  {
    StripWrapped(['"'], key, ['"'], Quotes);
  }

  lemma ShowHasNoTab(n: N.Numeral)
    requires N.ValidNumeral(n)
    ensures '\t' !in N.Show(n)
  {
    N.ShowChars(n);
  }

  /** Text built from tab-free pieces and tab-free separators has no tab. */
  lemma NoTabAround(open: string, a: string, mid: string, b: string, close: string)
    requires '\t' !in open && '\t' !in a && '\t' !in mid && '\t' !in b && '\t' !in close
    ensures '\t' !in open + a + mid + b + close
  {
  }

  /** The legacy row shape `"<month>"<TAB>[<temperature>, <precipitation>]`. */
  function ListRow(key: string, temp: N.Numeral, precip: N.Numeral): string {
    TabRow(QuotedKey(key), Render(LList([LNum(temp), LNum(precip)])))
  }

  lemma RenderPair(a: Literal, b: Literal)
    ensures Render(LList([a, b])) == "[" + Render(a) + ", " + Render(b) + "]"
  {
    var v := LList([a, b]);
    var parts := ItemTexts([a, b], v);
    assert parts[0] == Render(a) && parts[1] == Render(b);
    assert parts == [parts[0], parts[1]];
    CommasOfTwo(parts[0], parts[1]);
  }

  lemma ListTextNoTab(temp: N.Numeral, precip: N.Numeral)
    requires N.ValidNumeral(temp) && N.ValidNumeral(precip)
    ensures '\t' !in Render(LList([LNum(temp), LNum(precip)]))
  {
    RenderPair(LNum(temp), LNum(precip));
    ShowHasNoTab(temp);
    ShowHasNoTab(precip);
    NoTabAround("[", N.Show(temp), ", ", N.Show(precip), "]");
  }

  /** A row of two tab-free fields whose second reads as a two-element list
      decodes to a record of the two converted elements, or is skipped when
      either conversion fails. */
  lemma DecodeListShape(first: string, second: string, a: Literal, b: Literal)
    requires '\t' !in first && '\t' !in second
    requires ParseLiteral(second) == Some(LList([a, b]))
    requires WellFormed(a) && WellFormed(b)
    ensures DecodeRow(TabRow(first, second))
         == if LiteralFloat(a).Some? && LiteralFloat(b).Some?
            then Some(WeatherRecord(Strip(first, Quotes), LiteralFloat(a).value, LiteralFloat(b).value))
            else None
  {
    SplitTabRow(first, second);
  }

  /** A null temperature is a TypeError: the row is skipped. */
  lemma NullTemperatureSkipped(first: string, precip: N.Numeral)
    requires '\t' !in first
    requires N.ValidNumeral(precip) && !LeadingZeroInteger(precip)
    ensures DecodeRow(TabRow(first, Render(LList([LNone, LNum(precip)])))) == None
  {
    var lit := LList([LNone, LNum(precip)]);
    assert WellFormed(lit) by {
      assert lit.items[0] == LNone && lit.items[1] == LNum(precip);
    }
    RenderPair(LNone, LNum(precip));
    ShowHasNoTab(precip);
    NoTabAround("[", "None", ", ", N.Show(precip), "]");
    ParseLiteralRender(lit);
    DecodeListShape(first, Render(lit), LNone, LNum(precip));
  }

  /** Every legacy list row of a month key and two numbers decodes to the
      record of that month and those two numbers. */
  lemma ListRowDecodes(key: string, temp: N.Numeral, precip: N.Numeral)
    requires '\t' !in key && (key == [] || (key[0] != '"' && key[|key| - 1] != '"'))
    requires N.ValidNumeral(temp) && !LeadingZeroInteger(temp)
    requires N.ValidNumeral(precip) && !LeadingZeroInteger(precip)
    ensures DecodeRow(ListRow(key, temp, precip)) == Some(WeatherRecord(key, N.Value(temp), N.Value(precip)))
  {
    var lit := LList([LNum(temp), LNum(precip)]);
    assert WellFormed(lit) by {
      assert lit.items[0] == LNum(temp) && lit.items[1] == LNum(precip);
    }
    ListTextNoTab(temp, precip);
    assert '\t' !in QuotedKey(key);
    ParseLiteralRender(lit);
    DecodeListShape(QuotedKey(key), Render(lit), LNum(temp), LNum(precip));
    StripQuotedKey(key);
  }

  /** The dict the reducer yields for a month. */
  function ReducerValue(avg: N.Numeral, total: N.Numeral): Literal {
    LDict([Entry(LStr("avg_max_temp"), LNum(avg)), Entry(LStr("total_precip"), LNum(total))])
  }

  /** The row the reducer writes, `"<month>"<TAB>{"avg_max_temp": a, "total_precip": p}`. */
  function ReducerRow(key: string, avg: N.Numeral, total: N.Numeral): string {
    TabRow(QuotedKey(key), Render(ReducerValue(avg, total)))
  }

  lemma CommasOfTwo(a: string, b: string)
    ensures Commas([a, b]) == a + (", " + b)
  {
    assert [a, b][1..] == [b];
  }

  lemma RenderEntryPair(k1: Literal, v1: Literal, k2: Literal, v2: Literal)
    ensures Render(LDict([Entry(k1, v1), Entry(k2, v2)]))
         == "{" + (Render(k1) + (": " + Render(v1))) + (", " + (Render(k2) + (": " + Render(v2)))) + "}"
  {
    var v := LDict([Entry(k1, v1), Entry(k2, v2)]);
    var parts := EntryTexts(v.entries, v);
    var first, second := Render(k1) + (": " + Render(v1)), Render(k2) + (": " + Render(v2));
    assert Render(v) == "{" + Commas(parts) + "}";
    assert parts == [first, second] by {
      assert parts[0] == first && parts[1] == second;
    }
    CommasOfTwo(first, second);
  }

  lemma NoTabInPairs(k1: string, v1: string, k2: string, v2: string)
    requires '\t' !in k1 && '\t' !in v1 && '\t' !in k2 && '\t' !in v2
    ensures '\t' !in "{" + (k1 + (": " + v1)) + (", " + (k2 + (": " + v2))) + "}"
  {
  }

  lemma StringNoTab(s: string)
    requires '\t' !in s
    ensures '\t' !in Render(LStr(s))
  {
  }

  lemma ReducerTextNoTab(avg: N.Numeral, total: N.Numeral)
    requires N.ValidNumeral(avg) && N.ValidNumeral(total)
    ensures '\t' !in Render(ReducerValue(avg, total))
  {
    var k1, k2 := LStr("avg_max_temp"), LStr("total_precip");
    RenderEntryPair(k1, LNum(avg), k2, LNum(total));
    StringNoTab("avg_max_temp");
    StringNoTab("total_precip");
    ShowHasNoTab(avg);
    ShowHasNoTab(total);
    NoTabInPairs(Render(k1), N.Show(avg), Render(k2), N.Show(total));
  }

  lemma FieldNamesPlain()
    ensures '\\' !in "avg_max_temp" && '"' !in "avg_max_temp"
    ensures '\\' !in "total_precip" && '"' !in "total_precip"
  {
  }

  lemma EntryPairWellFormed(k1: Literal, v1: Literal, k2: Literal, v2: Literal)
    requires WellFormed(k1) && WellFormed(v1) && WellFormed(k2) && WellFormed(v2)
    ensures WellFormed(LDict([Entry(k1, v1), Entry(k2, v2)]))
  {
  }

  lemma ReducerValueWellFormed(avg: N.Numeral, total: N.Numeral)
    requires N.ValidNumeral(avg) && !LeadingZeroInteger(avg)
    requires N.ValidNumeral(total) && !LeadingZeroInteger(total)
    ensures WellFormed(ReducerValue(avg, total))
  {
    FieldNamesPlain();
    EntryPairWellFormed(LStr("avg_max_temp"), LNum(avg), LStr("total_precip"), LNum(total));
  }

  /** The reducer's dict rows are never decoded: each is read as a dict and
      skipped, so the output of the job yields no records. */
  lemma ReducerRowSkipped(key: string, avg: N.Numeral, total: N.Numeral)
    requires '\t' !in key
    requires N.ValidNumeral(avg) && !LeadingZeroInteger(avg)
    requires N.ValidNumeral(total) && !LeadingZeroInteger(total)
    ensures Split(ReducerRow(key, avg, total), '\t') == [QuotedKey(key), Render(ReducerValue(avg, total))]
    ensures ParseLiteral(Render(ReducerValue(avg, total))) == Some(ReducerValue(avg, total))
    ensures DecodeRow(ReducerRow(key, avg, total)) == None
  {
    var v := ReducerValue(avg, total);
    ReducerValueWellFormed(avg, total);
    ReducerTextNoTab(avg, total);
    assert '\t' !in QuotedKey(key);
    SplitTabRow(QuotedKey(key), Render(v));
    ParseLiteralRender(v);
  }

  /** A row the reducer writes for some month, or the empty row after the
      output's final newline. */
  ghost predicate ReducerLine(row: string) {
    || row == []
    || exists key, avg, total :: row == ReducerRow(key, avg, total)
        && '\t' !in key
        && N.ValidNumeral(avg) && !LeadingZeroInteger(avg)
        && N.ValidNumeral(total) && !LeadingZeroInteger(total)
  }

  /** Rows written by the reducer decode to no records at all. */
  lemma {:induction false} ReducerOutputDecodesToNothing(rows: seq<string>)
    requires forall i :: 0 <= i < |rows| ==> ReducerLine(rows[i])
    ensures DecodeRows(rows) == []
  {
    if rows != [] {
      var last := rows[|rows| - 1];
      assert ReducerLine(last);
      if last == [] {
        assert DecodeRow(last) == None;
      } else {
        var key, avg, total :| last == ReducerRow(key, avg, total)
          && '\t' !in key
          && N.ValidNumeral(avg) && !LeadingZeroInteger(avg)
          && N.ValidNumeral(total) && !LeadingZeroInteger(total);
        ReducerRowSkipped(key, avg, total);
      }
      ReducerOutputDecodesToNothing(rows[..|rows| - 1]);
    }
  }

  /** A stored blob made of reducer rows, with or without a final newline,
      decodes to an empty list. */
  lemma ReducerBlobDecodesToNothing(blob: string)
    requires forall i :: 0 <= i < |Rows(blob)| ==> ReducerLine(Rows(blob)[i])
    ensures DecodeRows(Rows(blob)) == []
  {
    ReducerOutputDecodesToNothing(Rows(blob));
  }

  // ---------------------------------------------------------------------------
  // The documented example

  lemma DocumentedNumbers()
    ensures N.Value(N.Numeral(false, "24", true, "75")) == 24.75
    ensures N.Value(N.Numeral(false, "106", true, "5")) == 106.5
  {
    assert N.DigitsValue("24") == 24 && N.DigitsValue("75") == 75 by {
      assert "24"[..1] == "2" && "75"[..1] == "7";
    }
    assert N.DigitsValue("106") == 106 && N.DigitsValue("5") == 5 by {
      assert "106"[..2] == "10" && "10"[..1] == "1";
    }
  }

  lemma DocumentedText()
    ensures ListRow("2023-01", N.Numeral(false, "24", true, "75"), N.Numeral(false, "106", true, "5"))
         == "\"2023-01\"\t[24.75, 106.5]"
  {
    var temp := N.Numeral(false, "24", true, "75");
    var precip := N.Numeral(false, "106", true, "5");
    RenderPair(LNum(temp), LNum(precip));
    assert N.Show(temp) == "24.75" && N.Show(precip) == "106.5";
  }

  /** The first row of the documented format decodes to month `2023-01`,
      temperature 24.75 and precipitation 106.5. */
  lemma DocumentedRow()
    ensures DecodeRow("\"2023-01\"\t[24.75, 106.5]") == Some(WeatherRecord("2023-01", 24.75, 106.5))
  {
    var temp := N.Numeral(false, "24", true, "75");
    var precip := N.Numeral(false, "106", true, "5");
    DocumentedNumbers();
    DocumentedText();
    ListRowDecodes("2023-01", temp, precip);
  }
}

=== FILE: literals.dfy ===
/**
 * A closed grammar for the literal in the second column of an output row,
 * standing in for Python's `ast.literal_eval`: `None`, `True`, `False`,
 * decimal numbers with an optional sign, quoted strings without escapes,
 * lists `[a, b, ...]` and dicts `{k: v, ...}` (a trailing comma allowed in
 * both), with spaces between tokens. Nothing is ever evaluated.
 */
module Literals {
  import opened Text
  import N = Numerals

  datatype Literal =
    | LNone
    | LBool(b: bool)
    | LNum(n: N.Numeral)
    | LStr(s: string)
    | LList(items: seq<Literal>)
    | LDict(entries: seq<Entry>)

  datatype Entry = Entry(key: Literal, value: Literal)

  /** `s` without its leading spaces (the tokenizer's blanks between tokens). */
  function SkipSpaces(s: string): (r: string)
    ensures |r| <= |s| && (r == [] || r[0] != ' ')
  {
    if s != [] && s[0] == ' ' then SkipSpaces(s[1..]) else s
  }

  /** An integer literal with a redundant leading zero (`007`), which Python
      refuses; `0`, `00` and `007.5` are fine. */
  predicate LeadingZeroInteger(n: N.Numeral) {
    && !n.point && |n.whole| > 1 && n.whole[0] == '0'
    && exists k :: 0 <= k < |n.whole| && n.whole[k] != '0'
  }

  // ---------------------------------------------------------------------------
  // Parsing

  /** The characters of a quoted string up to its closing quote `q`; a
      backslash (an escape) is not part of the grammar. */
  function StringBody(s: string, q: char): (r: Option<(string, string)>)
    ensures r.Some? ==> |r.value.1| < |s| && r.value.0 + [q] + r.value.1 == s
    ensures r.Some? ==> q !in r.value.0 && '\\' !in r.value.0
  {
    if s == [] || s[0] == '\\' then None
    else if s[0] == q then Some(([], s[1..]))
    else
      match StringBody(s[1..], q)
      case None => None
      case Some((body, rest)) =>
        assert [s[0]] + body + [q] + rest == s;
        Some(([s[0]] + body, rest))
  }

  function ParseNumber(negative: bool, t: string): (r: Option<(Literal, string)>)
    ensures r.Some? ==> |r.value.1| < |t| && WellFormed(r.value.0)
  {
    match N.ScanNumeral(t)
    case None => None
    case Some((n, rest)) =>
      if LeadingZeroInteger(n) then None else Some((LNum(n.(negative := negative)), rest))
  }

  function ParseKeyword(t: string): (r: Option<(Literal, string)>)
    ensures r.Some? ==> |r.value.1| < |t| && WellFormed(r.value.0)
  {
    if |t| >= 4 && t[..4] == "None" then Some((LNone, t[4..]))
    else if |t| >= 4 && t[..4] == "True" then Some((LBool(true), t[4..]))
    else if |t| >= 5 && t[..5] == "False" then Some((LBool(false), t[5..]))
    else None
  }

  /** One literal at the front of `s` (after any spaces), and the text after it. */
  function ParseValue(s: string): (r: Option<(Literal, string)>)
    ensures r.Some? ==> |r.value.1| < |s| && WellFormed(r.value.0)
    decreases |s|, 2
  {
    ParseToken(SkipSpaces(s))
  }

  /** One literal starting at the first character of `t`, chosen by that character. */
  function ParseToken(t: string): (r: Option<(Literal, string)>)
    ensures r.Some? ==> |r.value.1| < |t| && WellFormed(r.value.0)
    decreases |t|, 1
  {
    if t == [] then None
    else if t[0] == '[' then ParseList(t)
    else if t[0] == '{' then ParseDict(t)
    else if t[0] == '"' || t[0] == '\'' then ParseQuoted(t)
    else if t[0] == '-' || t[0] == '+' then ParseNumber(t[0] == '-', SkipSpaces(t[1..]))
    else if IsDigit(t[0]) || t[0] == '.' then ParseNumber(false, t)
    else ParseKeyword(t)
  }

  function ParseList(t: string): (r: Option<(Literal, string)>)
    requires t != []
    ensures r.Some? ==> |r.value.1| < |t| && WellFormed(r.value.0)
    decreases |t|, 0
  {
    match ParseItems(t[1..])
    case None => None
    case Some((items, rest)) => Some((LList(items), rest))
  }

  function ParseDict(t: string): (r: Option<(Literal, string)>)
    requires t != []
    ensures r.Some? ==> |r.value.1| < |t| && WellFormed(r.value.0)
    decreases |t|, 0
  {
    match ParseEntries(t[1..])
    case None => None
    case Some((entries, rest)) => Some((LDict(entries), rest))
  }

  function ParseQuoted(t: string): (r: Option<(Literal, string)>)
    requires t != [] && (t[0] == '"' || t[0] == '\'')
    ensures r.Some? ==> |r.value.1| < |t| && WellFormed(r.value.0)
  {
    match StringBody(t[1..], t[0])
    case None => None
    case Some((body, rest)) => Some((LStr(body), rest))
  }

  /** The elements of a list after its `[` (or after a `,`), through the `]`. */
  function ParseItems(s: string): (r: Option<(seq<Literal>, string)>)
    ensures r.Some? ==> |r.value.1| < |s|
    ensures r.Some? ==> forall i :: 0 <= i < |r.value.0| ==> WellFormed(r.value.0[i])
    decreases |s|, 3
  {
    var t := SkipSpaces(s);
    if t != [] && t[0] == ']' then Some(([], t[1..]))
    else
      match ParseValue(t)
      case None => None
      case Some((v, r)) =>
        var u := SkipSpaces(r);
        if u != [] && u[0] == ']' then Some(([v], u[1..]))
        else if u != [] && u[0] == ',' then
          match ParseItems(u[1..])
          case None => None
          case Some((vs, rest)) => Some(([v] + vs, rest))
        else None
  }

  /** The `key: value` entries of a dict after its `{` (or after a `,`),
      through the `}`. */
  function ParseEntries(s: string): (r: Option<(seq<Entry>, string)>)
    ensures r.Some? ==> |r.value.1| < |s| && EntriesWellFormed(r.value.0)
    decreases |s|, 3
  {
    var t := SkipSpaces(s);
    if t != [] && t[0] == '}' then Some(([], t[1..]))
    else
      match ParseValue(t)
      case None => None
      case Some((k, r)) => ParseEntryValue(k, r)
  }

  /** After a key: the `:` and the value. */
  function ParseEntryValue(k: Literal, r: string): (res: Option<(seq<Entry>, string)>)
    ensures res.Some? ==> |res.value.1| < |r|
    ensures res.Some? && WellFormed(k) ==> EntriesWellFormed(res.value.0)
    decreases |r|, 4
  {
    var u := SkipSpaces(r);
    if u == [] || u[0] != ':' then None
    else
      match ParseValue(u[1..])
      case None => None
      case Some((v, r')) => ParseEntryTail(Entry(k, v), r')
  }

  /** After an entry: the `}` that closes the dict, or a `,` and more entries. */
  function ParseEntryTail(e: Entry, r: string): (res: Option<(seq<Entry>, string)>)
    ensures res.Some? ==> |res.value.1| < |r|
    ensures res.Some? && WellFormed(e.key) && WellFormed(e.value) ==> EntriesWellFormed(res.value.0)
    decreases |r|, 4
  {
    var w := SkipSpaces(r);
    if w != [] && w[0] == '}' then Some(([e], w[1..]))
    else if w != [] && w[0] == ',' then
      match ParseEntries(w[1..])
      case None => None
      case Some((es, rest)) => Some(([e] + es, rest))
    else None
  }

  /** The whole text is one literal, with spaces allowed around it; `None`
      stands for the SyntaxError or ValueError `literal_eval` raises. */
  function ParseLiteral(text: string): (r: Option<Literal>)
    ensures r.Some? ==> WellFormed(r.value)
  {
    match ParseValue(text)
    case Some((v, rest)) => if SkipSpaces(rest) == [] then Some(v) else None
    case None => None
  }

  // ---------------------------------------------------------------------------
  // Rendering, the partner of parsing

  function QuoteFor(s: string): char {
    if '"' in s then '\'' else '"'
  }

  /** Texts joined with `", "` between them. */
  function Commas(parts: seq<string>): string {
    if parts == [] then []
    else if |parts| == 1 then parts[0]
    else parts[0] + (", " + Commas(parts[1..]))
  }

  /** Canonical text of a literal: double quotes unless the string holds one,
      `", "` between elements and `": "` between a key and its value. */
  function Render(v: Literal): string
    decreases v, 1
  {
    match v
    case LNone => "None"
    case LBool(b) => if b then "True" else "False"
    case LNum(n) => N.Show(n)
    case LStr(s) => [QuoteFor(s)] + s + [QuoteFor(s)]
    case LList(items) => "[" + Commas(ItemTexts(items, v)) + "]"
    case LDict(entries) => "{" + Commas(EntryTexts(entries, v)) + "}"
  }

  /** The rendering of each element of a list. */
  function ItemTexts(items: seq<Literal>, ghost parent: Literal): (texts: seq<string>)
    requires forall i :: 0 <= i < |items| ==> items[i] < parent
    ensures |texts| == |items|
    decreases parent, 0
  {
    seq(|items|, i requires 0 <= i < |items| => Render(items[i]))
  }

  /** The rendering of each `key: value` entry of a dict. */
  function EntryTexts(entries: seq<Entry>, ghost parent: Literal): (texts: seq<string>)
    requires forall i :: 0 <= i < |entries| ==> entries[i].key < parent && entries[i].value < parent
    ensures |texts| == |entries|
    decreases parent, 0
  {
    seq(|entries|, i requires 0 <= i < |entries| => Render(entries[i].key) + (": " + Render(entries[i].value)))
  }

  /** The literals Render writes in a form the grammar reads back: decimal
      numerals without a redundant leading zero, strings without a backslash
      and without both kinds of quote. */
  predicate WellFormed(v: Literal) {
    match v
    case LNone => true
    case LBool(_) => true
    case LNum(n) => N.ValidNumeral(n) && !LeadingZeroInteger(n)
    case LStr(s) => '\\' !in s && !('"' in s && '\'' in s)
    case LList(items) => forall i :: 0 <= i < |items| ==> WellFormed(items[i])
    case LDict(entries) =>
      forall i :: 0 <= i < |entries| ==> WellFormed(entries[i].key) && WellFormed(entries[i].value)
  }

  predicate EntriesWellFormed(entries: seq<Entry>) {
    forall i :: 0 <= i < |entries| ==> WellFormed(entries[i].key) && WellFormed(entries[i].value)
  }

  // ---------------------------------------------------------------------------
  // Round trip

  /** A rendering starts with a character that is neither a space nor a
      closing bracket. */
  lemma RenderStart(v: Literal)
    requires WellFormed(v)
    ensures Render(v) != [] && Render(v)[0] != ' ' && Render(v)[0] != ']' && Render(v)[0] != '}'
  {
    match v
    case LNum(n) =>
      assert N.Show(n) == (if n.negative then ['-'] else []) + n.whole + (if n.point then ['.'] + n.frac else []);
    case _ =>
  }

  lemma SkipNonSpace(s: string)
    requires s == [] || s[0] != ' '
    ensures SkipSpaces(s) == s
  {
  }

  lemma SkipOneSpace(s: string)
    requires s == [] || s[0] != ' '
    ensures SkipSpaces([' '] + s) == s
  {
    assert ([' '] + s)[1..] == s;
  }

  lemma {:induction false} StringBodyRoundTrip(body: string, q: char, rest: string)
    requires q !in body && '\\' !in body && q != '\\'
    ensures StringBody(body + [q] + rest, q) == Some((body, rest))
    decreases |body|
  {
    var s := body + [q] + rest;
    if body == [] {
      assert s == [q] + rest;
    } else {
      assert s[1..] == body[1..] + [q] + rest;
      StringBodyRoundTrip(body[1..], q, rest);
      assert [body[0]] + body[1..] == body;
    }
  }

  // Single parsing steps, each on text of which only the needed facts are known.

  lemma ValueIsToken(s: string)
    requires s != [] && s[0] != ' '
    ensures ParseValue(s) == ParseToken(s)
  {
    SkipNonSpace(s);
  }

  lemma TokenIsNumber(t: string)
    requires t != [] && (IsDigit(t[0]) || t[0] == '.')
    ensures ParseToken(t) == ParseNumber(false, t)
  {
    assert t[0] != '[' && t[0] != '{' && t[0] != '"' && t[0] != '\'' && t[0] != '-' && t[0] != '+';
  }

  lemma TokenIsNegativeNumber(t: string)
    requires t != [] && t[0] == '-'
    ensures ParseToken(t) == ParseNumber(true, SkipSpaces(t[1..]))
  {
    assert t[0] != '[' && t[0] != '{' && t[0] != '"' && t[0] != '\'';
  }

  lemma ItemsEnd(rest: string)
    ensures ParseItems("]" + rest) == Some(([], rest))
  {
    assert ("]" + rest)[1..] == rest;
  }

  lemma ItemsLast(s: string, v: Literal, rest: string)
    requires s != [] && s[0] != ' ' && s[0] != ']'
    requires ParseValue(s) == Some((v, "]" + rest))
    ensures ParseItems(s) == Some(([v], rest))
  {
    SkipNonSpace(s);
    SkipNonSpace("]" + rest);
    assert ("]" + rest)[1..] == rest;
  }

  lemma ItemsMore(s: string, v: Literal, next: string, vs: seq<Literal>, rest: string)
    requires s != [] && s[0] != ' ' && s[0] != ']'
    requires ParseValue(s) == Some((v, ", " + next))
    requires ParseItems([' '] + next) == Some((vs, rest))
    ensures ParseItems(s) == Some(([v] + vs, rest))
  {
    SkipNonSpace(s);
    SkipNonSpace(", " + next);
    assert (", " + next)[1..] == [' '] + next;
  }

  lemma ItemsSpace(next: string)
    requires next != [] && next[0] != ' '
    ensures ParseItems([' '] + next) == ParseItems(next)
  {
    SkipOneSpace(next);
    SkipNonSpace(next);
  }

  lemma EntriesEnd(rest: string)
    ensures ParseEntries("}" + rest) == Some(([], rest))
  {
    assert ("}" + rest)[1..] == rest;
  }

  lemma EntriesKey(s: string, k: Literal, r: string)
    requires s != [] && s[0] != ' ' && s[0] != '}'
    requires ParseValue(s) == Some((k, r))
    ensures ParseEntries(s) == ParseEntryValue(k, r)
  {
    SkipNonSpace(s);
  }

  lemma EntriesColon(k: Literal, valueText: string, v: Literal, after: string)
    requires valueText != [] && valueText[0] != ' '
    requires ParseValue(valueText) == Some((v, after))
    ensures ParseEntryValue(k, ": " + valueText) == ParseEntryTail(Entry(k, v), after)
  {
    SkipNonSpace(": " + valueText);
    assert (": " + valueText)[1..] == [' '] + valueText;
    SkipOneSpace(valueText);
    SkipNonSpace(valueText);
  }

  lemma EntriesClose(e: Entry, rest: string)
    ensures ParseEntryTail(e, "}" + rest) == Some(([e], rest))
  {
    SkipNonSpace("}" + rest);
    assert ("}" + rest)[1..] == rest;
  }

  lemma EntriesComma(e: Entry, next: string, es: seq<Entry>, rest: string)
    requires ParseEntries([' '] + next) == Some((es, rest))
    ensures ParseEntryTail(e, ", " + next) == Some(([e] + es, rest))
  {
    SkipNonSpace(", " + next);
    assert (", " + next)[1..] == [' '] + next;
  }

  lemma EntriesLast(s: string, k: Literal, valueText: string, v: Literal, rest: string)
    requires s != [] && s[0] != ' ' && s[0] != '}'
    requires valueText != [] && valueText[0] != ' '
    requires ParseValue(s) == Some((k, ": " + valueText))
    requires ParseValue(valueText) == Some((v, "}" + rest))
    ensures ParseEntries(s) == Some(([Entry(k, v)], rest))
  {
    EntriesKey(s, k, ": " + valueText);
    EntriesColon(k, valueText, v, "}" + rest);
    EntriesClose(Entry(k, v), rest);
  }

  lemma EntriesMore(s: string, k: Literal, valueText: string, v: Literal, next: string,
                    es: seq<Entry>, rest: string)
    requires s != [] && s[0] != ' ' && s[0] != '}'
    requires valueText != [] && valueText[0] != ' '
    requires ParseValue(s) == Some((k, ": " + valueText))
    requires ParseValue(valueText) == Some((v, ", " + next))
    requires ParseEntries([' '] + next) == Some((es, rest))
    ensures ParseEntries(s) == Some(([Entry(k, v)] + es, rest))
  {
    EntriesKey(s, k, ": " + valueText);
    EntriesColon(k, valueText, v, ", " + next);
    EntriesComma(Entry(k, v), next, es, rest);
  }

  lemma EntriesSpace(next: string)
    requires next != [] && next[0] != ' '
    ensures ParseEntries([' '] + next) == ParseEntries(next)
  {
    SkipOneSpace(next);
    SkipNonSpace(next);
  }

  // Round trip, case by case

  lemma ParseRenderKeyword(v: Literal, rest: string)
    requires v.LNone? || v.LBool?
    ensures ParseToken(Render(v) + rest) == Some((v, rest))
  {
    var s := Render(v) + rest;
    if v.LNone? || v.b {
      assert s[..4] == Render(v) && s[4..] == rest;
    } else {
      assert s[..4] == "Fals" && s[..5] == "False" && s[5..] == rest;
    }
  }

  lemma ParseRenderNumber(n: N.Numeral, rest: string)
    requires N.ValidNumeral(n) && !LeadingZeroInteger(n) && N.Delimited(rest)
    ensures ParseToken(N.Show(n) + rest) == Some((LNum(n), rest))
  {
    var unsigned := n.(negative := false);
    var u := N.Show(unsigned);
    N.UnsignedStart(unsigned);
    assert (u + rest)[0] == u[0];
    N.ScanNumeralShow(unsigned, rest);
    N.ShowSign(n);
    if n.negative {
      SignFirst(u, rest);
      ParseNegativeNumber(u + rest, unsigned, rest);
    } else {
      TokenIsNumber(u + rest);
    }
  }

  lemma SignFirst(u: string, rest: string)
    ensures ['-'] + u + rest == ['-'] + (u + rest)
  {
  }

  lemma ParseNegativeNumber(t: string, unsigned: N.Numeral, rest: string)
    requires t != [] && t[0] != ' ' && !LeadingZeroInteger(unsigned)
    requires N.ScanNumeral(t) == Some((unsigned, rest))
    ensures ParseToken(['-'] + t) == Some((LNum(unsigned.(negative := true)), rest))
  {
    TokenIsNegativeNumber(['-'] + t);
    assert (['-'] + t)[1..] == t;
    SkipNonSpace(t);
  }

  lemma ParseRenderString(str: string, rest: string)
    requires '\\' !in str && !('"' in str && '\'' in str)
    ensures ParseToken(Render(LStr(str)) + rest) == Some((LStr(str), rest))
  {
    var q := QuoteFor(str);
    var s := Render(LStr(str)) + rest;
    assert s == [q] + (str + [q] + rest);
    assert s[1..] == str + [q] + rest;
    StringBodyRoundTrip(str, q, rest);
  }

  /** Parsing the rendering of a well-formed literal gives the literal back and
      leaves exactly the text that followed it, whenever that text cannot
      extend a number. */
  lemma {:induction false} ParseRender(v: Literal, rest: string)
    requires WellFormed(v) && N.Delimited(rest)
    ensures ParseValue(Render(v) + rest) == Some((v, rest))
    decreases v, 2
  {
    RenderStart(v);
    ValueIsToken(Render(v) + rest);
    match v
    case LNone => ParseRenderKeyword(v, rest);
    case LBool(_) => ParseRenderKeyword(v, rest);
    case LNum(n) => ParseRenderNumber(n, rest);
    case LStr(str) => ParseRenderString(str, rest);
    case LList(_) => ParseRenderList(v, rest);
    case LDict(_) => ParseRenderDict(v, rest);
  }

  lemma {:induction false} ParseRenderList(v: Literal, rest: string)
    requires v.LList? && WellFormed(v)
    ensures ParseToken(Render(v) + rest) == Some((v, rest))
    decreases v, 1
  {
    var items := v.items;
    var parts := ItemTexts(items, v);
    forall i | 0 <= i < |parts|
      ensures parts[i] != [] && parts[i][0] != ' ' && parts[i][0] != ']'
    {
      RenderStart(items[i]);
    }
    forall i, x | 0 <= i < |parts| && N.Delimited(x)
      ensures ParseValue(parts[i] + x) == Some((items[i], x))
    {
      ParseRender(items[i], x);
    }
    assert ItemTextsParse(parts, items);
    ParseCommaItems(parts, items, rest);
    var s := Render(v) + rest;
    assert s == ['['] + (Commas(parts) + "]" + rest);
    assert s[1..] == Commas(parts) + "]" + rest;
  }

  lemma {:induction false} ParseRenderDict(v: Literal, rest: string)
    requires v.LDict? && WellFormed(v)
    ensures ParseToken(Render(v) + rest) == Some((v, rest))
    decreases v, 1
  {
    var entries := v.entries;
    var parts := EntryTexts(entries, v);
    var keys := seq(|entries|, i requires 0 <= i < |entries| => Render(entries[i].key));
    var values := seq(|entries|, i requires 0 <= i < |entries| => Render(entries[i].value));
    forall i | 0 <= i < |parts|
      ensures parts[i] == keys[i] + (": " + values[i])
      ensures keys[i] != [] && keys[i][0] != ' ' && keys[i][0] != '}'
      ensures values[i] != [] && values[i][0] != ' '
    {
      RenderStart(entries[i].key);
      RenderStart(entries[i].value);
    }
    forall i, x | 0 <= i < |parts| && N.Delimited(x)
      ensures ParseValue(keys[i] + x) == Some((entries[i].key, x))
      ensures ParseValue(values[i] + x) == Some((entries[i].value, x))
    {
      ParseRender(entries[i].key, x);
      ParseRender(entries[i].value, x);
    }
    assert EntryTextsParse(parts, keys, values, entries);
    ParseCommaEntries(parts, keys, values, entries, rest);
    var s := Render(v) + rest;
    assert s == ['{'] + (Commas(parts) + "}" + rest);
    assert s[1..] == Commas(parts) + "}" + rest;
  }

  lemma CommasStart(parts: seq<string>)
    requires parts != [] && parts[0] != []
    ensures Commas(parts) != [] && Commas(parts)[0] == parts[0][0]
  {
  }

  /** The facts about the element texts that the list round trip relies on. */
  ghost predicate ItemTextsParse(parts: seq<string>, items: seq<Literal>) {
    && |parts| == |items|
    && (forall i :: 0 <= i < |parts| ==> parts[i] != [] && parts[i][0] != ' ' && parts[i][0] != ']')
    && (forall i, x :: 0 <= i < |parts| && N.Delimited(x) ==> ParseValue(parts[i] + x) == Some((items[i], x)))
  }

  /** Elements whose texts each parse back, joined by commas and closed by
      `]`, parse back as the list of those elements. */
  lemma {:induction false} ParseCommaItems(parts: seq<string>, items: seq<Literal>, rest: string)
    requires ItemTextsParse(parts, items)
    ensures ParseItems(Commas(parts) + "]" + rest) == Some((items, rest))
  {
    if parts == [] {
      ItemsEnd(rest);
    } else if |parts| == 1 {
      FirstItem(parts, items, "]" + rest);
      CommaItemsLast(parts, items[0], rest);
      ItemsCons(items);
    } else {
      ItemTextsTail(parts, items);
      ParseCommaItems(parts[1..], items[1..], rest);
      FirstItem(parts, items, ", " + (Commas(parts[1..]) + "]" + rest));
      CommaItemsMore(parts, items[0], items[1..], rest);
      ItemsCons(items);
    }
  }

  lemma ItemTextsTail(parts: seq<string>, items: seq<Literal>)
    requires parts != [] && ItemTextsParse(parts, items)
    ensures ItemTextsParse(parts[1..], items[1..])
  {
    forall i, x | 0 <= i < |parts| - 1 && N.Delimited(x)
      ensures ParseValue(parts[1..][i] + x) == Some((items[1..][i], x))
    {
      assert parts[1..][i] == parts[i + 1];
    }
  }

  /** The first element parses back, whatever delimited text follows. */
  lemma FirstItem(parts: seq<string>, items: seq<Literal>, after: string)
    requires parts != [] && ItemTextsParse(parts, items) && N.Delimited(after)
    ensures parts[0] != [] && parts[0][0] != ' ' && parts[0][0] != ']'
    ensures ParseValue(parts[0] + after) == Some((items[0], after))
    ensures |parts| > 1 ==> parts[1] != [] && parts[1][0] != ' '
  {
  }

  lemma CommaItemsLast(parts: seq<string>, item: Literal, rest: string)
    requires |parts| == 1 && parts[0] != [] && parts[0][0] != ' ' && parts[0][0] != ']'
    requires ParseValue(parts[0] + ("]" + rest)) == Some((item, "]" + rest))
    ensures ParseItems(Commas(parts) + "]" + rest) == Some(([item], rest))
  {
    CommasOne(parts);
    LastConcat(parts[0], rest);
    ItemsLast(parts[0] + ("]" + rest), item, rest);
  }

  lemma CommasOne(parts: seq<string>)
    requires |parts| == 1
    ensures Commas(parts) == parts[0]
  {
  }

  lemma LastConcat(a: string, rest: string)
    ensures a + "]" + rest == a + ("]" + rest)
  {
  }

  lemma CommaItemsMore(parts: seq<string>, item: Literal, items: seq<Literal>, rest: string)
    requires |parts| > 1 && parts[0] != [] && parts[0][0] != ' ' && parts[0][0] != ']'
    requires parts[1] != [] && parts[1][0] != ' '
    requires var next := Commas(parts[1..]) + "]" + rest;
      ParseValue(parts[0] + (", " + next)) == Some((item, ", " + next))
    requires ParseItems(Commas(parts[1..]) + "]" + rest) == Some((items, rest))
    ensures ParseItems(Commas(parts) + "]" + rest) == Some(([item] + items, rest))
  {
    var a := parts[0];
    var next := Commas(parts[1..]) + "]" + rest;
    CommasMore(parts);
    ItemConcat(a, Commas(parts[1..]), rest);
    CommasStart(parts[1..]);
    ItemsSpace(next);
    ItemsMore(a + (", " + next), item, next, items, rest);
  }

  /** The facts about the entry texts that the dict round trip relies on. */
  ghost predicate EntryTextsParse(parts: seq<string>, keys: seq<string>, values: seq<string>, entries: seq<Entry>) {
    && |parts| == |keys| == |values| == |entries|
    && (forall i :: 0 <= i < |parts| ==>
         && parts[i] == keys[i] + (": " + values[i])
         && keys[i] != [] && keys[i][0] != ' ' && keys[i][0] != '}'
         && values[i] != [] && values[i][0] != ' ')
    && (forall i, x :: 0 <= i < |parts| && N.Delimited(x) ==>
         && ParseValue(keys[i] + x) == Some((entries[i].key, x))
         && ParseValue(values[i] + x) == Some((entries[i].value, x)))
  }

  /** Entries whose key and value texts each parse back, joined by commas
      and closed by `}`, parse back as those entries. */
  lemma {:induction false} ParseCommaEntries(parts: seq<string>, keys: seq<string>, values: seq<string>,
                                             entries: seq<Entry>, rest: string)
    requires EntryTextsParse(parts, keys, values, entries)
    ensures ParseEntries(Commas(parts) + "}" + rest) == Some((entries, rest))
  {
    if parts == [] {
      EntriesEnd(rest);
    } else if |parts| == 1 {
      FirstEntry(parts, keys, values, entries, "}" + rest);
      CommaEntriesLast(parts, keys[0], values[0], entries[0].key, entries[0].value, rest);
      EntriesCons(entries);
    } else {
      var next := Commas(parts[1..]) + "}" + rest;
      EntryTextsTail(parts, keys, values, entries);
      ParseCommaEntries(parts[1..], keys[1..], values[1..], entries[1..], rest);
      FirstEntry(parts, keys, values, entries, ", " + next);
      CommaEntriesMore(parts, keys[0], values[0], entries[0].key, entries[0].value, entries[1..], rest);
      EntriesCons(entries);
    }
  }

  lemma EntryTextsTail(parts: seq<string>, keys: seq<string>, values: seq<string>, entries: seq<Entry>)
    requires parts != [] && EntryTextsParse(parts, keys, values, entries)
    ensures EntryTextsParse(parts[1..], keys[1..], values[1..], entries[1..])
  {
    forall i, x | 0 <= i < |parts| - 1 && N.Delimited(x)
      ensures ParseValue(keys[1..][i] + x) == Some((entries[1..][i].key, x))
      ensures ParseValue(values[1..][i] + x) == Some((entries[1..][i].value, x))
    {
      assert keys[1..][i] == keys[i + 1] && values[1..][i] == values[i + 1];
    }
  }

  lemma CommaEntriesLast(parts: seq<string>, k: string, b: string, key: Literal, value: Literal, rest: string)
    requires |parts| == 1 && parts[0] == k + (": " + b)
    requires k != [] && k[0] != ' ' && k[0] != '}'
    requires b + ("}" + rest) != [] && (b + ("}" + rest))[0] != ' '
    requires ParseValue(k + (": " + (b + ("}" + rest)))) == Some((key, ": " + (b + ("}" + rest))))
    requires ParseValue(b + ("}" + rest)) == Some((value, "}" + rest))
    ensures ParseEntries(Commas(parts) + "}" + rest) == Some(([Entry(key, value)], rest))
  {
    assert Commas(parts) + "}" + rest == k + (": " + (b + ("}" + rest)));
    EntriesLast(k + (": " + (b + ("}" + rest))), key, b + ("}" + rest), value, rest);
  }

  lemma CommaEntriesMore(parts: seq<string>, k: string, b: string, key: Literal, value: Literal,
                         es: seq<Entry>, rest: string)
    requires |parts| > 1 && parts[0] == k + (": " + b) && parts[1] != [] && parts[1][0] != ' '
    requires k != [] && k[0] != ' ' && k[0] != '}'
    requires var after := ", " + (Commas(parts[1..]) + "}" + rest);
      && b + after != [] && (b + after)[0] != ' '
      && ParseValue(k + (": " + (b + after))) == Some((key, ": " + (b + after)))
      && ParseValue(b + after) == Some((value, after))
    requires ParseEntries(Commas(parts[1..]) + "}" + rest) == Some((es, rest))
    ensures ParseEntries(Commas(parts) + "}" + rest) == Some(([Entry(key, value)] + es, rest))
  {
    var tail := Commas(parts[1..]);
    var next := tail + "}" + rest;
    CommasMore(parts);
    EntryConcat(k, b, tail, rest);
    CommasStart(parts[1..]);
    EntriesSpace(next);
    EntriesMore(k + (": " + (b + (", " + next))), key, b + (", " + next), value, next, es, rest);
  }

  lemma EntriesCons(entries: seq<Entry>)
    requires entries != []
    ensures [Entry(entries[0].key, entries[0].value)] + entries[1..] == entries
    ensures |entries| == 1 ==> entries == [Entry(entries[0].key, entries[0].value)]
  {
  }

  lemma ItemsCons(items: seq<Literal>)
    requires items != []
    ensures [items[0]] + items[1..] == items
    ensures |items| == 1 ==> items == [items[0]]
  {
  }

  lemma CommasMore(parts: seq<string>)
    requires |parts| > 1
    ensures Commas(parts) == parts[0] + (", " + Commas(parts[1..]))
  {
  }

  lemma ItemConcat(a: string, tail: string, rest: string)
    ensures a + (", " + tail) + "]" + rest == a + (", " + (tail + "]" + rest))
  {
  }

  lemma EntryConcat(k: string, b: string, tail: string, rest: string)
    ensures k + (": " + b) + (", " + tail) + "}" + rest == k + (": " + (b + (", " + (tail + "}" + rest))))
  {
  }

  /** The first entry's key and value parse back, whatever delimited text follows. */
  lemma FirstEntry(parts: seq<string>, keys: seq<string>, values: seq<string>,
                   entries: seq<Entry>, after: string)
    requires parts != [] && EntryTextsParse(parts, keys, values, entries) && N.Delimited(after)
    ensures keys[0] != [] && keys[0][0] != ' ' && keys[0][0] != '}'
    ensures values[0] + after != [] && (values[0] + after)[0] != ' '
    ensures ParseValue(keys[0] + (": " + (values[0] + after))) == Some((entries[0].key, ": " + (values[0] + after)))
    ensures ParseValue(values[0] + after) == Some((entries[0].value, after))
    ensures |parts| > 1 ==> parts[1] != [] && parts[1][0] != ' '
  {
    if |parts| > 1 {
      assert parts[1] == keys[1] + (": " + values[1]);
    }
    assert (values[0] + after)[0] == values[0][0];
    assert N.Delimited(": " + (values[0] + after));
  }

  /** `literal_eval` of a rendering gives the literal back. */
  lemma ParseLiteralRender(v: Literal)
    requires WellFormed(v)
    ensures ParseLiteral(Render(v)) == Some(v)
  {
    ParseRender(v, []);
    assert Render(v) + [] == Render(v);
  }

  /** Every literal the parser accepts has a canonical text that parses back
      to the same literal. */
  lemma ParsedLiteralRendersBack(text: string)
    requires ParseLiteral(text).Some?
    ensures ParseLiteral(Render(ParseLiteral(text).value)) == ParseLiteral(text)
  {
    ParseLiteralRender(ParseLiteral(text).value);
  }
}

=== FILE: mapper.dfy ===
/**
 * The mapper of the monthly statistics job: one input line, already decoded
 * from JSON, becomes at most one `(YYYY-MM, (temperature, 1, precipitation))`
 * pair. A record missing one of its three fields is dropped silently; a
 * record on which a conversion raises is dropped and counted under the
 * `mapper_errors` counter group, keyed by the exception's class name.
 */
module Mapper {
  import opened Text
  import opened Numerals
  import opened Calendar
  import opened Aggregation

  /** A decoded JSON value. Objects map each key to its last value. */
  datatype Json =
    | JNull
    | JBool(b: bool)
    | JNumber(x: real)
    | JString(s: string)
    | JArray(items: seq<Json>)
    | JObject(fields: map<string, Json>)

  /** `record.get(key)`: a missing key and an explicit null are both None. */
  function Get(fields: map<string, Json>, key: string): Json {
    if key in fields then fields[key] else JNull
  }

  /** Python truthiness of a decoded JSON value. */
  predicate Truthy(v: Json) {
    match v
    case JNull => false
    case JBool(b) => b
    case JNumber(x) => x != 0.0
    case JString(s) => s != []
    case JArray(items) => items != []
    case JObject(fields) => fields != map[]
  }

  /** The exception classes the mapper catches (a JSON decoding failure is a
      ValueError subclass, counted under its own class name). */
  datatype ErrorKind = ValueError | TypeError | AttributeError | JSONDecodeError

  function ErrorName(kind: ErrorKind): string {
    match kind
    case ValueError => "ValueError"
    case TypeError => "TypeError"
    case AttributeError => "AttributeError"
    case JSONDecodeError => "JSONDecodeError"
  }

  /** A value, or the exception raised instead. */
  datatype Outcome<T> = Ok(value: T) | Raise(kind: ErrorKind)

  /** `float(v)` on a decoded JSON value. */
  function ToFloat(v: Json): (r: Outcome<real>)
    ensures v.JNumber? ==> r == Ok(v.x)
    ensures v.JBool? ==> r == Ok(if v.b then 1.0 else 0.0)
    ensures v.JString? ==>
      r == (if ParseFloat(v.s).Some? then Ok(ParseFloat(v.s).value) else Raise(ValueError))
    ensures v.JNull? || v.JArray? || v.JObject? ==> r == Raise(TypeError)
  {
    match v
    case JNumber(x) => Ok(x)
    case JBool(b) => Ok(if b then 1.0 else 0.0)
    case JString(s) =>
      (match ParseFloat(s)
       case Some(x) => Ok(x)
       case None => Raise(ValueError))
    case _ => Raise(TypeError)
  }

  /** `datetime.strptime(v, '%Y-%m-%d').strftime('%Y-%m')`. */
  function MonthOf(v: Json): (r: Outcome<string>)
    ensures r.Ok? <==> v.JString? && ParseDate(v.s).Some?
    ensures r.Ok? ==> r.value == MonthKey(ParseDate(v.s).value)
    ensures r.Raise? ==> r.kind == (if v.JString? then ValueError else TypeError)
  {
    match v
    case JString(s) =>
      (match ParseDate(s)
       case Some(d) => Ok(MonthKey(d))
       case None => Raise(ValueError))
    case _ => Raise(TypeError)
  }

  /** What the mapper does with one line. */
  datatype MapOutcome =
    | Emit(key: string, value: Partial)  // yields one pair
    | Drop                               // a required field is missing: nothing, no counter
    | Fail(kind: ErrorKind)              // an exception was caught: nothing, one counter bump

  /** The three fields are present in the sense of the mapper's guard: a
      truthy `date`, and non-null temperature and precipitation. */
  predicate FieldsPresent(fields: map<string, Json>) {
    && Truthy(Get(fields, "date"))
    && Get(fields, "temperature_2m_max") != JNull
    && Get(fields, "precipitation_sum") != JNull
  }

  /** The mapper on one line; `decoded` is `None` when `json.loads` raised. */
  function MapRecord(decoded: Option<Json>): (out: MapOutcome)
    ensures out.Emit? ==>
      && decoded.Some? && decoded.value.JObject?
      && var f := decoded.value.fields;
      && out.value.count == 1
      && ToFloat(Get(f, "temperature_2m_max")) == Ok(out.value.sumTemp)
      && ToFloat(Get(f, "precipitation_sum")) == Ok(out.value.sumPrecip)
      && MonthOf(Get(f, "date")) == Ok(out.key)
    ensures out.Drop? <==> decoded.Some? && decoded.value.JObject? && !FieldsPresent(decoded.value.fields)
    ensures decoded.None? ==> out == Fail(JSONDecodeError)
    ensures decoded.Some? && !decoded.value.JObject? ==> out == Fail(AttributeError)
    ensures decoded.Some? && decoded.value.JObject? && FieldsPresent(decoded.value.fields) ==>
      var f := decoded.value.fields;
      var temp, precip, date := ToFloat(Get(f, "temperature_2m_max")), ToFloat(Get(f, "precipitation_sum")), MonthOf(Get(f, "date"));
      && (temp.Ok? && precip.Ok? && date.Ok? ==> out == Emit(date.value, Partial(temp.value, 1, precip.value)))
      && (temp.Ok? && precip.Ok? && date.Raise? ==> out == Fail(date.kind))
  {
    match decoded
    case None => Fail(JSONDecodeError)
    case Some(JObject(f)) =>
      if !FieldsPresent(f) then Drop
      else Convert(ToFloat(Get(f, "temperature_2m_max")), ToFloat(Get(f, "precipitation_sum")), MonthOf(Get(f, "date")))
    case Some(_) => Fail(AttributeError)
  }

  /** The guarded block, in Python's evaluation order: the first conversion
      that raises decides the outcome. */
  function Convert(temp: Outcome<real>, precip: Outcome<real>, month: Outcome<string>): MapOutcome {
    match temp
    case Raise(k) => Fail(k)
    case Ok(t) =>
      match precip
      case Raise(k) => Fail(k)
      case Ok(p) =>
        match month
        case Raise(k) => Fail(k)
        case Ok(m) => Emit(m, Partial(t, 1, p))
  }

  /** A record holding a valid ISO date and two numbers (and any other
      fields) is mapped to that date's month and a single observation. */
  lemma MapWellFormedRecord(fields: map<string, Json>, d: Date, temp: real, precip: real)
    requires ValidDate(d)
    requires Get(fields, "date") == JString(FormatDate(d))
    requires Get(fields, "temperature_2m_max") == JNumber(temp)
    requires Get(fields, "precipitation_sum") == JNumber(precip)
    ensures MapRecord(Some(JObject(fields))) == Emit(MonthKey(d), Partial(temp, 1, precip))
  {
    ParseFormatDate(d);
  }

  /** The first failing conversion decides the counter: temperature, then
      precipitation, then the date. */
  lemma MapFailureOrder(fields: map<string, Json>)
    requires FieldsPresent(fields)
    ensures var out := MapRecord(Some(JObject(fields)));
      && (ToFloat(Get(fields, "temperature_2m_max")).Raise? ==>
            out == Fail(ToFloat(Get(fields, "temperature_2m_max")).kind))
      && (ToFloat(Get(fields, "temperature_2m_max")).Ok? && ToFloat(Get(fields, "precipitation_sum")).Raise? ==>
            out == Fail(ToFloat(Get(fields, "precipitation_sum")).kind))
      && (ToFloat(Get(fields, "temperature_2m_max")).Ok? && ToFloat(Get(fields, "precipitation_sum")).Ok?
          && MonthOf(Get(fields, "date")).Raise? ==>
            out == Fail(MonthOf(Get(fields, "date")).kind))
      && (out.Fail? ==> out.kind == ValueError || out.kind == TypeError)
  {
    var temp := ToFloat(Get(fields, "temperature_2m_max"));
    var precip := ToFloat(Get(fields, "precipitation_sum"));
    var date := MonthOf(Get(fields, "date"));
    assert MapRecord(Some(JObject(fields))) == Convert(temp, precip, date);
    ConvertOrder(temp, precip, date);
  }

  lemma ConvertOrder(temp: Outcome<real>, precip: Outcome<real>, month: Outcome<string>)
    ensures var out := Convert(temp, precip, month);
      && (temp.Raise? ==> out == Fail(temp.kind))
      && (temp.Ok? && precip.Raise? ==> out == Fail(precip.kind))
      && (temp.Ok? && precip.Ok? && month.Raise? ==> out == Fail(month.kind))
      && (out.Fail? ==>
            (temp.Raise? && out.kind == temp.kind)
            || (precip.Raise? && out.kind == precip.kind)
            || (month.Raise? && out.kind == month.kind))
  {
  }

  // ---------------------------------------------------------------------------
  // The job object and its counters

  /** The group the mapper counts its caught exceptions under. */
  const MapperErrors: string := "mapper_errors"

  function CounterValue(counters: map<(string, string), int>, group: string, name: string): int {
    if (group, name) in counters then counters[(group, name)] else 0
  }

  /** The job instance: its only state is the framework's counters. */
  class WeatherStatsJob {
    var counters: map<(string, string), int>

    constructor ()
      ensures counters == map[]
    {
      counters := map[];
    }

    method IncrementCounter(group: string, name: string, amount: int)
      modifies this
      ensures counters == old(counters)[(group, name) := CounterValue(old(counters), group, name) + amount]
    {
      counters := counters[(group, name) := CounterValue(counters, group, name) + amount];
    }

    /** The mapper: at most one pair per line, with count 1; a caught
        exception bumps exactly one counter by one. */
    method MapperExtractMonthlyData(decoded: Option<Json>) returns (emitted: seq<(string, Partial)>)
      modifies this
      ensures |emitted| <= 1
      ensures forall i :: 0 <= i < |emitted| ==> emitted[i].1.count == 1
      ensures emitted == (match MapRecord(decoded)
                          case Emit(k, v) => [(k, v)]
                          case _ => [])
      ensures counters == (match MapRecord(decoded)
                           case Fail(kind) =>
                             old(counters)[(MapperErrors, ErrorName(kind)) :=
                               CounterValue(old(counters), MapperErrors, ErrorName(kind)) + 1]
                           case _ => old(counters))
    {
      var out := MapRecord(decoded);
      match out
      case Emit(k, v) =>
        emitted := [(k, v)];
      case Drop =>
        emitted := [];
      case Fail(kind) =>
        IncrementCounter(MapperErrors, ErrorName(kind), 1);
        emitted := [];
    }
  }

  // ---------------------------------------------------------------------------
  // From mapper to reducer, for one month

  /** The values the mapper emits under `key`, in line order: what the shuffle
      hands the reducer for that key when no combiner runs. */
  function ValuesFor(lines: seq<Option<Json>>, key: string): (values: seq<Partial>)
    ensures |values| <= |lines|
    ensures AllSingleObservations(values)
  {
    if lines == [] then []
    else
      var init := ValuesFor(lines[..|lines| - 1], key);
      match MapRecord(lines[|lines| - 1])
      case Emit(k, v) => if k == key then init + [v] else init
      case _ => init
  }

  /** Number of lines the mapper accepts under `key`. */
  function AcceptedCount(lines: seq<Option<Json>>, key: string): nat {
    if lines == [] then 0
    else
      AcceptedCount(lines[..|lines| - 1], key)
      + (if MapRecord(lines[|lines| - 1]).Emit? && MapRecord(lines[|lines| - 1]).key == key then 1 else 0)
  }

  /** Fed the mapper's outputs for a month, the reducer's total count is the
      number of lines accepted for that month. */
  lemma {:induction false} ReducerCountsAcceptedLines(lines: seq<Option<Json>>, key: string)
    ensures SumTuples(ValuesFor(lines, key)).count == AcceptedCount(lines, key)
  {
    if lines != [] {
      ReducerCountsAcceptedLines(lines[..|lines| - 1], key);
      ObservationCount(ValuesFor(lines, key));
      ObservationCount(ValuesFor(lines[..|lines| - 1], key));
    }
  }

  /** A line that is dropped or fails adds nothing to any month. */
  lemma RejectedLineContributesNothing(lines: seq<Option<Json>>, line: Option<Json>, key: string)
    requires !MapRecord(line).Emit?
    ensures ValuesFor(lines + [line], key) == ValuesFor(lines, key)
  {
    assert (lines + [line])[..|lines|] == lines;
  }
}

=== FILE: numerals.dfy ===
/**
 * Decimal numerals: the digit strings of a date (`%Y`, `%m`, `%d`), the
 * number tokens of the output row literals, and the text that Python's
 * `float(str)` accepts, restricted to plain decimal notation.
 */
module Numerals {
  import opened Text

  function DigitValue(c: char): nat
    requires IsDigit(c)
  {
    (c as int - '0' as int) as nat
  }

  function DigitChar(d: nat): (c: char)
    requires d < 10
    ensures IsDigit(c) && DigitValue(c) == d
  {
    ('0' as int + d) as char
  }

  function Pow10(n: nat): (r: nat)
    ensures r >= 1
  {
    if n == 0 then 1 else 10 * Pow10(n - 1)
  }

  /** The natural number a string of decimal digits denotes, most significant first. */
  function DigitsValue(s: string): (v: nat)
    requires AllDigits(s)
    ensures v < Pow10(|s|)
  {
    if s == [] then 0 else 10 * DigitsValue(s[..|s| - 1]) + DigitValue(s[|s| - 1])
  }

  /** `n` written with exactly `width` digits, zero-padded on the left (as
      `strftime` writes `%m`, `%d` and, for four-digit years, `%Y`). */
  function ZeroPad(n: nat, width: nat): (s: string)
    ensures |s| == width && AllDigits(s)
  {
    if width == 0 then [] else ZeroPad(n / 10, width - 1) + [DigitChar(n % 10)]
  }

  /** Reading back a zero-padded number gives the number, when it fits. */
  lemma {:induction false} ZeroPadValue(n: nat, width: nat)
    requires n < Pow10(width)
    ensures DigitsValue(ZeroPad(n, width)) == n
  {
    if width > 0 {
      ZeroPadValue(n / 10, width - 1);
      var s := ZeroPad(n, width);
      assert s[..|s| - 1] == ZeroPad(n / 10, width - 1);
    }
  }

  lemma DivModTen(x: nat, d: nat)
    requires d < 10
    ensures (10 * x + d) / 10 == x && (10 * x + d) % 10 == d
  {
  }

  lemma DigitCharValue(c: char)
    requires IsDigit(c)
    ensures DigitChar(DigitValue(c)) == c
  {
  }

  /** Padding the value of a digit string to its own length gives the string back. */
  lemma {:induction false} ValueZeroPad(s: string)
    requires AllDigits(s)
    ensures ZeroPad(DigitsValue(s), |s|) == s
  {
    if s != [] {
      var init, last := s[..|s| - 1], s[|s| - 1];
      assert AllDigits(init) && IsDigit(last);
      var x, d := DigitsValue(init), DigitValue(last);
      ValueZeroPad(init);
      DivModTen(x, d);
      DigitCharValue(last);
      assert DigitsValue(s) == 10 * x + d;
      assert ZeroPad(10 * x + d, |s|) == ZeroPad(x, |init|) + [DigitChar(d)];
      assert s == init + [last];
    }
  }

  // ---------------------------------------------------------------------------
  // Decimal numerals

  /** A decimal numeral: optional minus sign, integer digits, an optional
      decimal point and fraction digits (`12`, `12.`, `.5`, `-24.75`). */
  datatype Numeral = Numeral(negative: bool, whole: string, point: bool, frac: string)

  predicate ValidNumeral(n: Numeral) {
    && AllDigits(n.whole) && AllDigits(n.frac)
    && (n.whole != [] || n.frac != [])
    && (n.frac != [] ==> n.point)
  }

  function Magnitude(n: Numeral): real
    requires ValidNumeral(n)
  {
    DigitsValue(n.whole) as real + DigitsValue(n.frac) as real / Pow10(|n.frac|) as real
  }

  /** The number a numeral denotes. */
  function Value(n: Numeral): real
    requires ValidNumeral(n)
  {
    if n.negative then -Magnitude(n) else Magnitude(n)
  }

  /** The numeral's text. */
  function Show(n: Numeral): string {
    (if n.negative then ['-'] else []) + n.whole + (if n.point then ['.'] + n.frac else [])
  }

  /** The longest run of digits at the front of `s`, and what follows it. */
  function ScanDigits(s: string): (r: (string, string))
    ensures r.0 + r.1 == s && AllDigits(r.0)
    ensures r.1 == [] || !IsDigit(r.1[0])
  {
    if s != [] && IsDigit(s[0]) then
      var (ds, rest) := ScanDigits(s[1..]);
      assert [s[0]] + ds + rest == s;
      ([s[0]] + ds, rest)
    else ([], s)
  }

  lemma {:induction false} ScanDigitsPrefix(ds: string, rest: string)
    requires AllDigits(ds)
    requires rest == [] || !IsDigit(rest[0])
    ensures ScanDigits(ds + rest) == (ds, rest)
  {
    if ds != [] {
      assert (ds + rest)[1..] == ds[1..] + rest;
      ScanDigitsPrefix(ds[1..], rest);
      assert [ds[0]] + ds[1..] == ds;
    } else {
      assert ds + rest == rest;
    }
  }

  /** An unsigned numeral at the front of `s`: digits, optionally followed by
      `.` and more digits, with at least one digit in all. */
  function ScanNumeral(s: string): (r: Option<(Numeral, string)>)
    ensures r.Some? ==>
      && ValidNumeral(r.value.0) && !r.value.0.negative
      && Show(r.value.0) + r.value.1 == s && |r.value.1| < |s|
  {
    var scan := ScanDigits(s);
    var ds, r1 := scan.0, scan.1;
    if r1 != [] && r1[0] == '.' then
      var scan' := ScanDigits(r1[1..]);
      var fs, r2 := scan'.0, scan'.1;
      if ds == [] && fs == [] then None
      else
        var n := Numeral(false, ds, true, fs);
        assert Show(n) + r2 == s by {
          assert r1 == ['.'] + (fs + r2);
          ShowPointed(n, r2);
        }
        Some((n, r2))
    else if ds == [] then None
    else
      var n := Numeral(false, ds, false, []);
      assert Show(n) == ds;
      Some((n, r1))
  }

  lemma ShowPointed(n: Numeral, rest: string)
    requires n.point && !n.negative
    ensures Show(n) + rest == n.whole + (['.'] + (n.frac + rest))
  {
  }

  /** A numeral is read back whole when what follows cannot extend it. */
  predicate Delimited(rest: string) {
    rest == [] || (!IsDigit(rest[0]) && rest[0] != '.')
  }

  lemma ScanNumeralShow(n: Numeral, rest: string)
    requires ValidNumeral(n) && !n.negative && Delimited(rest)
    ensures ScanNumeral(Show(n) + rest) == Some((n, rest))
  {
    var s := Show(n) + rest;
    if n.point {
      assert s == n.whole + ("." + n.frac + rest);
      ScanDigitsPrefix(n.whole, "." + n.frac + rest);
      assert ("." + n.frac + rest)[1..] == n.frac + rest;
      ScanDigitsPrefix(n.frac, rest);
    } else {
      assert s == n.whole + rest;
      ScanDigitsPrefix(n.whole, rest);
    }
  }

  // ---------------------------------------------------------------------------
  // Python's float(str), for plain decimal text

  /** The ASCII characters `float` ignores around its argument: the six
      C `isspace` characters, not the separators `\x1c` to `\x1f`. */
  const Whitespace: set<char> := {' ', '\t', '\n', '\r', '\U{000B}', '\U{000C}'}

  /** `float(s)` for a string: surrounding whitespace, one optional sign
      directly before an unsigned decimal numeral, and nothing else; `None`
      stands for the ValueError. */
  function ParseFloat(s: string): (r: Option<real>)
    ensures r.Some? ==> forall k :: 0 <= k < |s| ==> NumeralChar(s[k]) || s[k] in Whitespace
  {
    var t := Strip(s, Whitespace);
    if ParseSigned(t).Some? then
      ParseSignedChars(t);
      StrippedChars(s, Whitespace);
      ParseSigned(t)
    else None
  }

  /** A character that may appear in the text of a signed decimal numeral. */
  predicate NumeralChar(c: char) {
    IsDigit(c) || c == '+' || c == '-' || c == '.'
  }

  /** What strip keeps, or removes, accounts for every character. */
  lemma StrippedChars(s: string, cs: set<char>)
    requires forall k :: 0 <= k < |Strip(s, cs)| ==> NumeralChar(Strip(s, cs)[k])
    ensures forall k :: 0 <= k < |s| ==> NumeralChar(s[k]) || s[k] in cs
  {
    StripSlice(s, cs);
    var r, i := Strip(s, cs), |s| - |TrimStart(s, cs)|;
    forall k | 0 <= k < |s| ensures NumeralChar(s[k]) || s[k] in cs {
      if i <= k < i + |r| {
        assert s[k] == r[k - i];
      }
    }
  }

  /** Text `float` accepts, once stripped, is made of digits, signs and points. */
  lemma ParseSignedChars(t: string)
    requires ParseSigned(t).Some?
    ensures forall k :: 0 <= k < |t| ==> NumeralChar(t[k])
  {
    var body := if t[0] == '-' || t[0] == '+' then t[1..] else t;
    var n := ScanNumeral(body).value.0;
    assert Show(n) + [] == body;
    ShowChars(n);
    forall k | 0 <= k < |t| ensures NumeralChar(t[k]) {
      if body != t {
        if k > 0 {
          assert t[k] == body[k - 1];
        }
      }
    }
  }

  /** The information separator `\x1c` is not whitespace to `float`. */
  lemma SeparatorNotStripped()
    ensures ParseFloat("12\U{001C}") == None
  {
    assert !NumeralChar("12\U{001C}"[2]) && "12\U{001C}"[2] !in Whitespace;
  }

  /** An optional `-` or `+` directly followed by an unsigned numeral that
      makes up the rest of `t`. */
  function ParseSigned(t: string): Option<real> {
    if t == [] then None
    else
      var negative := t[0] == '-';
      var body := if negative || t[0] == '+' then t[1..] else t;
      match ScanNumeral(body)
      case Some((n, rest)) =>
        if rest != [] then None
        else if negative then Some(-Value(n))
        else Some(Value(n))
      case None => None
  }

  /** A numeral's text is made of digits, a leading `-` and a `.`. */
  lemma ShowChars(n: Numeral)
    requires ValidNumeral(n)
    ensures Show(n) != []
    ensures forall k :: 0 <= k < |Show(n)| ==> IsDigit(Show(n)[k]) || Show(n)[k] == '-' || Show(n)[k] == '.'
  {
    var sign: string := if n.negative then ['-'] else [];
    var tail: string := if n.point then ['.'] + n.frac else [];
    var s := Show(n);
    assert s == sign + n.whole + tail;
    forall k | 0 <= k < |s| ensures IsDigit(s[k]) || s[k] == '-' || s[k] == '.' {
      if k < |sign| {
        assert s[k] == '-';
      } else if k < |sign| + |n.whole| {
        assert s[k] == n.whole[k - |sign|];
      } else {
        assert s[k] == tail[k - |sign| - |n.whole|];
      }
    }
  }

  /** An unsigned numeral's text starts with a digit or the point. */
  lemma UnsignedStart(n: Numeral)
    requires ValidNumeral(n) && !n.negative
    ensures Show(n) != [] && (IsDigit(Show(n)[0]) || Show(n)[0] == '.')
  {
    if n.whole != [] {
      assert Show(n)[0] == n.whole[0];
    }
  }

  /** Every numeral's text, with any surrounding whitespace, converts to the
      numeral's value. */
  lemma ParseFloatShow(pre: string, n: Numeral, post: string)
    requires ValidNumeral(n)
    requires forall k :: 0 <= k < |pre| ==> pre[k] in Whitespace
    requires forall k :: 0 <= k < |post| ==> post[k] in Whitespace
    ensures ParseFloat(pre + Show(n) + post) == Some(Value(n))
  {
    var m := Show(n);
    ShowChars(n);
    assert m[0] !in Whitespace && m[|m| - 1] !in Whitespace;
    StripWrapped(pre, m, post, Whitespace);
    ParseSignedShow(n);
  }

  lemma ShowSign(n: Numeral)
    ensures Show(n) == (if n.negative then ['-'] else []) + Show(n.(negative := false))
  {
  }

  lemma ParseSignedShow(n: Numeral)
    requires ValidNumeral(n)
    ensures ParseSigned(Show(n)) == Some(Value(n))
  {
    var m := Show(n);
    var unsigned := n.(negative := false);
    var u := Show(unsigned);
    ShowSign(n);
    if n.negative {
      assert m == ['-'] + u;
      assert m[0] == '-' && m[1..] == u;
    } else {
      assert m == u;
      assert u[0] != '-' && u[0] != '+' by {
        if n.whole != [] {
          assert u[0] == n.whole[0];
        } else {
          assert u[0] == '.';
        }
      }
    }
    assert u + [] == u;
    ScanNumeralShow(unsigned, []);
    assert Magnitude(unsigned) == Magnitude(n);
  }

  lemma ParseFloatIsSigned(s: string)
    ensures ParseFloat(s) == ParseSigned(Strip(s, Whitespace))
  {
  }

  lemma ParseSignedPlus(n: Numeral)
    requires ValidNumeral(n) && !n.negative
    ensures ParseSigned("+" + Show(n)) == Some(Value(n))
  {
    var u := Show(n);
    var m := "+" + u;
    assert m[0] == '+' && m[1..] == u;
    assert u + [] == u;
    ScanNumeralShow(n, []);
  }

  /** An explicit `+` before an unsigned numeral is accepted and changes
      nothing: `float("+5")` is `5.0`. */
  lemma ParsePlusShow(pre: string, n: Numeral, post: string)
    requires ValidNumeral(n) && !n.negative
    requires forall k :: 0 <= k < |pre| ==> pre[k] in Whitespace
    requires forall k :: 0 <= k < |post| ==> post[k] in Whitespace
    ensures ParseFloat(pre + "+" + Show(n) + post) == Some(Value(n))
  {
    var u := Show(n);
    var m := "+" + u;
    ShowChars(n);
    assert m[0] == '+' && m[|m| - 1] == u[|u| - 1];
    assert pre + "+" + u + post == pre + m + post;
    StripWrapped(pre, m, post, Whitespace);
    ParseFloatIsSigned(pre + m + post);
    ParseSignedPlus(n);
  }

  /** What `ParseSigned` accepts is one numeral with an optional sign. */
  lemma ParseSignedSound(t: string)
    requires ParseSigned(t).Some?
    ensures exists sign: string, n: Numeral ::
      && ValidNumeral(n) && !n.negative
      && (sign == "" || sign == "+" || sign == "-")
      && t == sign + Show(n)
      && ParseSigned(t).value == (if sign == "-" then -Value(n) else Value(n))
  {
    var sign: string := if t[0] == '-' then "-" else if t[0] == '+' then "+" else "";
    var body := t[|sign|..];
    assert t == sign + body;
    var n := ScanNumeral(body).value.0;
    assert Show(n) + [] == body;
    assert t == sign + Show(n);
  }

  /** Everything `float` accepts is, once stripped, one numeral with an
      optional `+` or `-` in front, and the result is its signed value. */
  lemma ParseFloatSound(s: string)
    requires ParseFloat(s).Some?
    ensures exists sign: string, n: Numeral ::
      && ValidNumeral(n) && !n.negative
      && (sign == "" || sign == "+" || sign == "-")
      && Strip(s, Whitespace) == sign + Show(n)
      && ParseFloat(s).value == (if sign == "-" then -Value(n) else Value(n))
  {
    ParseFloatIsSigned(s);
    ParseSignedSound(Strip(s, Whitespace));
  }
}

=== FILE: text.dfy ===
/**
 * Character and string helpers shared by the aggregation job and the row
 * decoder: the optional-value wrapper, ASCII digits, splitting on one
 * separator character (what `str.split(sep)` and a delimiter-only CSV reader
 * do) and stripping a set of characters from both ends (`str.strip(chars)`).
 */
module Text {

  datatype Option<+T> = None | Some(value: T)

  predicate IsDigit(c: char) {
    '0' <= c <= '9'
  }

  predicate AllDigits(s: string) {
    forall k :: 0 <= k < |s| ==> IsDigit(s[k])
  }

  /** Number of occurrences of `c` in `s`. */
  function Occurrences(s: string, c: char): nat {
    if s == [] then 0 else (if s[0] == c then 1 else 0) + Occurrences(s[1..], c)
  }

  // ---------------------------------------------------------------------------
  // Splitting on a separator character

  /** The pieces of `s` between occurrences of `sep`, left to right; an empty
      string gives one empty piece, as `"".split(sep)` does. */
  function Split(s: string, sep: char): (parts: seq<string>)
    ensures |parts| == Occurrences(s, sep) + 1
    ensures forall k :: 0 <= k < |parts| ==> sep !in parts[k]
    decreases |s|
  {
    if s == [] then [[]]
    else
      var rest := Split(s[1..], sep);
      if s[0] == sep then [[]] + rest
      else [[s[0]] + rest[0]] + rest[1..]
  }

  /** The inverse of Split: the pieces glued back with `sep` between them. */
  function Join(parts: seq<string>, sep: char): string
    requires |parts| >= 1
  {
    if |parts| == 1 then parts[0] else parts[0] + [sep] + Join(parts[1..], sep)
  }

  lemma {:induction false} JoinSplit(s: string, sep: char)
    ensures Join(Split(s, sep), sep) == s
    decreases |s|
  {
    if s != [] {
      JoinSplit(s[1..], sep);
      var rest := Split(s[1..], sep);
      if s[0] != sep {
        if |rest| == 1 {
          assert Split(s, sep) == [[s[0]] + rest[0]];
        } else {
          assert Split(s, sep)[1..] == rest[1..];
        }
      } else {
        assert Split(s, sep)[1..] == rest;
      }
    }
  }

  /** Splitting a joined sequence of separator-free pieces gives the pieces back. */
  lemma {:induction false} SplitJoin(parts: seq<string>, sep: char)
    requires |parts| >= 1
    requires forall k :: 0 <= k < |parts| ==> sep !in parts[k]
    ensures Split(Join(parts, sep), sep) == parts
    decreases |parts|, |parts[0]|
  {
    var p := parts[0];
    if p == [] {
      if |parts| > 1 {
        SplitJoin(parts[1..], sep);
        var s := Join(parts, sep);
        assert s == [sep] + Join(parts[1..], sep);
        assert s[1..] == Join(parts[1..], sep);
      }
    } else {
      var parts' := [p[1..]] + parts[1..];
      assert p[1..] + [] == p[1..];
      forall k | 0 <= k < |parts'| ensures sep !in parts'[k] {
        if k == 0 { assert forall x :: x in p[1..] ==> x in p; }
        else { assert parts'[k] == parts[k]; }
      }
      SplitJoin(parts', sep);
      var s := Join(parts, sep);
      JoinHead(parts, sep);
      assert s[1..] == Join(parts', sep) by { JoinHead(parts', sep); JoinTail(parts, parts', sep); }
      assert s[0] == p[0] && p[0] != sep;
      var rest := Split(s[1..], sep);
      assert rest == parts';
      assert [[s[0]] + rest[0]] + rest[1..] == parts by {
        assert [s[0]] + p[1..] == p;
        assert rest[1..] == parts[1..];
      }
    }
  }

  lemma JoinHead(parts: seq<string>, sep: char)
    requires |parts| >= 1
    ensures Join(parts, sep) == parts[0] + (if |parts| == 1 then [] else [sep] + Join(parts[1..], sep))
  {
  }

  lemma DropFirst(a: string, tail: string)
    requires a != []
    ensures (a + tail)[1..] == a[1..] + tail
  {
  }

  lemma JoinTail(parts: seq<string>, parts': seq<string>, sep: char)
    requires |parts| >= 1 && parts[0] != []
    requires parts' == [parts[0][1..]] + parts[1..]
    ensures Join(parts, sep)[1..] == Join(parts', sep)
  {
    if |parts| == 1 {
      assert Join(parts, sep) == parts[0] + [];
      assert Join(parts', sep) == parts[0][1..] + [];
      DropFirst(parts[0], []);
    } else {
      var tail := [sep] + Join(parts[1..], sep);
      assert parts'[1..] == parts[1..];
      assert Join(parts, sep) == parts[0] + tail;
      assert Join(parts', sep) == parts[0][1..] + tail;
      DropFirst(parts[0], tail);
    }
  }

  // ---------------------------------------------------------------------------
  // Stripping characters from both ends

  /** `s` without its longest prefix made of characters in `cs`. */
  function TrimStart(s: string, cs: set<char>): (r: string)
    ensures |r| <= |s| && r == s[|s| - |r|..]
    ensures forall k :: 0 <= k < |s| - |r| ==> s[k] in cs
    ensures r == [] || r[0] !in cs
  {
    if s != [] && s[0] in cs then TrimStart(s[1..], cs) else s
  }

  /** `s` without its longest suffix made of characters in `cs`. */
  function TrimEnd(s: string, cs: set<char>): (r: string)
    ensures |r| <= |s| && r == s[..|r|]
    ensures forall k :: |r| <= k < |s| ==> s[k] in cs
    ensures r == [] || r[|r| - 1] !in cs
  {
    if s != [] && s[|s| - 1] in cs then TrimEnd(s[..|s| - 1], cs) else s
  }

  /** `str.strip(chars)`: `s` without its leading and trailing characters
      in `cs`. */
  function Strip(s: string, cs: set<char>): (r: string)
    ensures |r| <= |s|
    ensures r == [] || (r[0] !in cs && r[|r| - 1] !in cs)
  {
    TrimEnd(TrimStart(s, cs), cs)
  }

  /** What Strip removes: a run of characters in `cs` at the front and one at
      the back, and nothing from the middle. */
  lemma StripSlice(s: string, cs: set<char>)
    ensures var r, i := Strip(s, cs), |s| - |TrimStart(s, cs)|;
      && i + |r| <= |s| && r == s[i..i + |r|]
      && (forall k :: 0 <= k < i ==> s[k] in cs)
      && (forall k :: i + |r| <= k < |s| ==> s[k] in cs)
  {
    var t := TrimStart(s, cs);
    var r := TrimEnd(t, cs);
    var i := |s| - |t|;
    assert t == s[i..] && r == t[..|r|];
    forall k | i + |r| <= k < |s| ensures s[k] in cs {
      assert s[k] == t[k - i];
    }
  }

  /** A string with no strippable character at either end is left alone, and
      wrapping it in any run of strippable characters is undone by Strip. */
  lemma {:induction false} StripWrapped(pre: string, m: string, post: string, cs: set<char>)
    requires forall k :: 0 <= k < |pre| ==> pre[k] in cs
    requires forall k :: 0 <= k < |post| ==> post[k] in cs
    requires m == [] || (m[0] !in cs && m[|m| - 1] !in cs)
    ensures Strip(pre + m + post, cs) == m
  {
    var s := pre + m + post;
    assert s == pre + (m + post);
    if m == [] {
      assert m + post == post;
      TrimStartAll(pre + post, cs);
    } else {
      TrimStartPrefix(pre, m + post, cs);
      TrimEndSuffix(m, post, cs);
    }
  }

  lemma TrimStartAll(s: string, cs: set<char>)
    requires forall k :: 0 <= k < |s| ==> s[k] in cs
    ensures TrimStart(s, cs) == []
  {
  }

  lemma {:induction false} TrimStartPrefix(pre: string, s: string, cs: set<char>)
    requires forall k :: 0 <= k < |pre| ==> pre[k] in cs
    requires s == [] || s[0] !in cs
    ensures TrimStart(pre + s, cs) == s
    decreases |pre|
  {
    if pre != [] {
      assert (pre + s)[1..] == pre[1..] + s;
      TrimStartPrefix(pre[1..], s, cs);
    }
  }

  lemma {:induction false} TrimEndSuffix(s: string, post: string, cs: set<char>)
    requires forall k :: 0 <= k < |post| ==> post[k] in cs
    requires s == [] || s[|s| - 1] !in cs
    ensures TrimEnd(s + post, cs) == s
    decreases |post|
  {
    if post != [] {
      var p' := post[..|post| - 1];
      assert (s + post)[..|s + post| - 1] == s + p';
      TrimEndSuffix(s, p', cs);
    } else {
      assert s + post == s;
    }
  }
}
